=== FILE: README.md ===
# firestore-seed: seed resolution and import, modelled in Dafny

firestore-seed fills a Firestore database from a declarative seed. A seed is
a list of collections. Each collection holds documents, and a document's data
may contain placeholders:
- an image, which is uploaded to Cloud Storage and replaced by its download URL;
- a document reference;
- a geo point;
- a subcollection, whose documents are imported below the document after that document has been written.

This project models the engine that does the resolution and the import, in
both builds of the library:
- the TypeScript source (`src/index.ts`);
- the older JavaScript build (`index.js`).

It proves the engine's promises about that model.

The pieces, one module each:

- `Results`: the error kinds and the `Result`/`Option` wrappers. `Both` joins two outcomes as `Promise.all` does when nothing is cancelled: the first error counts.
- `Strings`: JavaScript's `split`, `replace` with a regular expression and a replacement string (first match only, with `$`-pattern expansion), and the decimal keys `for..in` gives array indices.
- `Uri`: `encodeURIComponent` (UTF-8, upper-case `%XX`) with its inverse.
- `Values`: `Seed`, the caller's data with placeholders, and `Data`, the Firestore-native values a document is written with. `Data` has no placeholder constructor, so no placeholder can survive resolution. Array holes are explicit (`Slot.Hole`).
- `World`: the abstract file system, bucket and database:
  - an environment of oracles: which local files exist, the bucket name, which remote calls fail, and the token generator;
  - a state that holds the image instances with their URL caches, the blobs, the stored documents and a trace of every outside call with its outcome.
- `Storage`: `uploadFile` and `ImageSeed.upload`.
- `Resolve`: `filterObject`. It returns the resolved data and the subcollection imports it deferred.
- `Import`: `importDocuments` and `importCollections`.
- `Builders`: `docRef` and `image`.
- `Legacy`: what `index.js` does differently: the null-id check of `Document` and `Collection.getCollection`.

The JavaScript build's `uploadFile` (index.js:22-92), `Image.upload`
(index.js:104-123), `filterObject` (index.js:191-228) and document loop
(index.js:239-254) are the same algorithm as their TypeScript counterparts.
The rows below that cite `src/index.ts` model both builds.

Concurrency is modelled as sequential execution in program order:
- sibling children of a composite run one after another;
- so do sibling documents, sibling deferred imports and sibling collections.

Every sibling still runs after one of them fails, as with `Promise.all`,
which does not cancel anything, and the outcome is the first failure. For
resolution this is `Resolve.ResolveItemsInOrder` and
`Resolve.ResolveFieldsInOrder`. For the import, every document of every
collection is reached whatever the outcome (`Import.AllAttempted`). So is
every document of every deferred import of a document whose write succeeded
(`Import.DeferredAttempted`). A failure of the first sibling is the outcome.
The deferred imports of a document whose resolution or write failed are never
started. A successful import has written every document of the whole tree,
subcollections included and at every depth, each with a resolution of its own
seed data (`Import.TreeWritten` over `Import.CollectionsPlaced`). It has
written nothing else (`Import.ImportedExactlyTheTree`).
The only ordering the code enforces is that a document's deferred imports start after
its write has succeeded. `Import.ParentsFirst` states that ordering over the
trace: every call made for a document inside a subcollection, whether it
resolves the document's data or writes it, comes after a successful write of
the parent document.

`docRef` checks only the number of parts (src/index.ts:270, index.js:265).
So `"a/"` is accepted as collection `a` with the empty document id, and `"/"`
as two empty parts (`Builders.DocRefEmptyPartsExample`).

## Model

| member | source | states |
|---|---|---|
| Results.Both | src/index.ts:247 | The join of two outcomes succeeds iff both succeed; otherwise it is the first failure, in order. |
| Strings.Split | src/index.ts:269-270 | `split("/")` yields exactly one more part than there are separators, and no part contains one. |
| Strings.JoinSplit | src/index.ts:269 | Joining the parts of a split with the separator gives back the original string. |
| Strings.SplitPair | src/index.ts:269-275 | A string with one separator splits into exactly the text before it and the text after it. |
| Strings.SeparatorPosition | src/index.ts:269-275 | A string with exactly one separator decomposes around it in only one way. |
| Strings.Find | src/index.ts:115-116 | The position found is an occurrence of the pattern with none before it; if none is found, there is none anywhere. |
| Strings.ReplaceFirstVerbatim | src/index.ts:115-116 | The corrected replacement keeps the text before the first `{id}`, puts the id there verbatim, and keeps everything after it. |
| Strings.ReplaceFirstJs | src/index.ts:115-116 | The source's `replace`: a path without the placeholder is unchanged; otherwise the text before the first `{id}` and the text after it are both kept around the inserted replacement. |
| Strings.ReplaceFirstKeepsLater | src/index.ts:115-116 | Only the first occurrence is replaced, by the source's `replace` and by the literal one: a later `{id}` survives, shifted by the length of the expanded replacement (of the id itself when it has no `$`). |
| Strings.ReplaceFirstAbsent | src/index.ts:115-116 | A path without the placeholder is left as it is, by both forms of replacement. |
| Strings.Expand | src/index.ts:115-116 | The text JavaScript's `replace` inserts for a replacement string; one without `$` is inserted verbatim. |
| Strings.ReplaceFirstAgrees | src/index.ts:115-116 | For a document id without `$`, the source's `replace` and literal replacement give the same path. |
| Strings.DollarIdKeepsPlaceholder | src/index.ts:115-116 | With document id `$&`, the source's `replace` leaves `images/{id}` unchanged, whereas literal replacement gives `images/$&`. |
| Strings.Decimal | src/index.ts:208-209 | An array index key is a non-empty string of decimal digits. |
| Strings.DecimalRoundTrip | src/index.ts:208-209 | Reading an index key back gives the index. |
| Strings.DecimalInjective | src/index.ts:208-209 | Distinct indices have distinct keys. |
| Uri.Utf8RoundTrip | src/index.ts:89 | UTF-8 decoding inverts the UTF-8 encoding `encodeURIComponent` escapes. |
| Uri.ReadEscapesRoundTrip | src/index.ts:89 | The `%XX` escapes of a byte sequence read back as those bytes. |
| Uri.DecodeChar | src/index.ts:89 | Decoding consumes exactly the encoding of one character and yields that character. |
| Uri.Encode | src/index.ts:89 | `decodeURIComponent` inverts `encodeURIComponent` on every string, and an encoding holds only unreserved characters, `%` and upper-case hex digits; in particular no `/`, `?`, `&` or `#`. |
| Uri.EncodeInjective | src/index.ts:89 | Distinct destinations have distinct encodings. |
| Uri.EncodeSlash | src/index.ts:85-89 | The slash of a nested destination is encoded as `%2F`. |
| Storage.StripLeadingSlash | src/index.ts:27-29 | The destination loses exactly one leading `/` when it has one, and is unchanged otherwise. |
| Storage.DownloadURL | src/index.ts:86-91 | A download URL starts with the storage prefix and the bucket name followed by `/o/`, and ends with the token. |
| Storage.ParseDownloadURLRoundTrip | src/index.ts:86-91 | A download URL determines the bucket, destination and token it was built from, for a bucket name without `/`. |
| Storage.DownloadURLIsNotSentinel | src/index.ts:86-91 | No download URL equals the deletion sentinel. |
| Storage.ProvideToken | src/index.ts:56-83 | Succeeds iff every call it made succeeded. A blob with a non-empty token keeps it: the bucket is unchanged, no token is drawn, and the URL carries that token. Otherwise, on success, exactly that blob gains the next generated token, and the URL carries it. A failure leaves the bucket unchanged. Other blobs, the images and the documents are never touched. |
| Storage.EnsureBlob | src/index.ts:36-56 | Asks whether the blob exists. On success the blob exists: if it was absent or `force` is set, it is a fresh upload of the file; otherwise the bucket is unchanged. A failure leaves the bucket unchanged, other blobs are never touched, and it succeeds iff every call it made succeeded. |
| Storage.UploadFile | src/index.ts:26-95 | A missing local file fails with `file not found`, with no remote call and the bucket unchanged. Otherwise the result succeeds iff every call it made succeeded. On success it is the download URL of the destination (leading `/` removed), which now exists with a token. Blobs at other destinations are never touched. |
| Storage.UploadedIffAbsentOrForced | src/index.ts:46 | The upload call is made iff the blob is absent or the upload is forced. |
| Storage.ExistingTokenReused | src/index.ts:67-70 | A blob that exists with a token is neither uploaded nor given a new token, and the URL carries its token. |
| Storage.ImageUpload | src/index.ts:109-128 | A cached URL is returned with no call and no change. Otherwise a successful upload caches its URL on the instance, and a failure leaves every cache as it was. |
| Storage.UploadImageFile | src/index.ts:117-123 | For the substituted paths: a missing local file fails after the one local check with the bucket unchanged; a successful upload is the download URL of the remote path and is cached on the instance; a failure leaves every cache as it was. |
| Storage.ImageUploadTarget | src/index.ts:115-123 | An uncached image is uploaded to its remote path with the first `{id}` replaced as JavaScript's `replace` does it and one leading `/` removed; for a document id without `$` that is the id inserted verbatim. |
| Storage.ImageUploadMissingFile | src/index.ts:115-120 | A missing local file (after the source's id substitution) fails after the one local check, with the bucket and caches unchanged. |
| Storage.ImageUploadIdempotent | src/index.ts:111-114 | After a successful upload, uploading the same instance for any document returns the same URL and changes nothing. |
| Resolve.DeferAll | src/index.ts:196-199 | Each subcollection found becomes one deferred import into collection *key* below the current document. |
| Resolve.ResolveImage | src/index.ts:109-128 | An image placeholder becomes a download URL string of the bucket. A cached URL is returned with no call and no change. Otherwise, on success, the URL is cached on the instance and is the download URL of the instance's remote path, with the first `{id}` replaced by the document id as JavaScript's `replace` does it and one leading `/` removed. Its calls are made for the current document and write nothing, and it succeeds iff they all succeed. |
| Resolve.ResolveSubcollection | src/index.ts:195-199 | Under a key, a subcollection placeholder becomes the sentinel and defers exactly one import below the document. At the document root it has no key, so naming the collection fails and nothing is deferred. |
| Resolve.Resolve | src/index.ts:184-221 | The resolution succeeds iff every call it made succeeded. On success the data conforms to the seed (`Conforms`). The deferred imports are exactly the subcollections found, in tree order, under their innermost keys, whatever the outcome. No document is written, and image instances are neither created nor removed. |
| Resolve.ResolveSlot | src/index.ts:206-213 | An element keeps its index: a hole stays a hole, a child resolved to the sentinel leaves a hole, and any other child is placed at its index. |
| Resolve.ResolveItems | src/index.ts:206-213 | The array resolution succeeds iff every call succeeded. On success the rebuilt array has the original length and conforms element by element. The deferred imports are the subcollections of the elements, named by index. |
| Resolve.ResolveItemsInOrder | src/index.ts:206-213 | The elements are resolved one after another: the rest is resolved from the state the first element left, whatever its outcome, and a failure of the first element is the outcome. |
| Resolve.ResolveField | src/index.ts:206-213 | An entry is kept under its key iff it is not dropped. |
| Resolve.ResolveFields | src/index.ts:206-213 | The object resolution succeeds iff every call succeeded. On success the rebuilt object holds exactly the entries whose child did not resolve to the sentinel, in order. |
| Resolve.ResolveFieldsInOrder | src/index.ts:206-213 | The entries are resolved one after another: the rest is resolved from the state the first entry left, whatever its outcome, and a failure of the first entry is the outcome. |
| Resolve.NotDroppedNotDeleted | src/index.ts:152 | Only a subcollection or the sentinel string itself resolves to the sentinel. |
| Resolve.ConformsNoDeleted | src/index.ts:210 | Resolved data holds the sentinel nowhere below its root. |
| Resolve.ItemsConformNoDeleted | src/index.ts:210 | A rebuilt array has no sentinel element. |
| Resolve.FieldsConformNoDeleted | src/index.ts:210 | A rebuilt object has no sentinel entry. |
| Resolve.SentinelStringDropped | src/index.ts:152 | A caller's own `"__delete__"` entry is dropped like a subcollection. |
| Resolve.InnermostKey | src/index.ts:196 | A subcollection nested in a map is named after the innermost key, whatever the outer key. |
| Resolve.IndexKey | src/index.ts:196-209 | A subcollection that is an array element is named after its index; holes before it keep the index. |
| Resolve.SubcollectionsBounded | src/index.ts:195-199 | The documents of the deferred imports are strictly smaller than the data they were found in, and name only its image instances. |
| Import.Collection | src/index.ts:300-302 | `collection(name, docs)` is the top-level collection `name`. |
| Import.ReplayResolution | src/index.ts:183-231 | Resolving a document writes no document. |
| Import.ParentsFirstMonotone | src/index.ts:237-244 | Parents-first ordering stays true when more documents were written beforehand. |
| Import.ParentsFirstAppend | src/index.ts:237-244 | Parents-first ordering composes along a trace. |
| Import.DeferAllFacts | src/index.ts:196-199 | The deferred imports of a document all target collections in that document. |
| Import.WriteThenRun | src/index.ts:237-244 | The write is the first call. If it fails, nothing else happens and the document fails. Otherwise every document of every deferred import is reached, and the document succeeds iff all of them do. On success every document of the deferred imports' trees, at every depth, was written with data conforming to its own seed (`DeferredPlaced`). Nothing is written outside the document and the trees of its deferred imports. |
| Import.ParentsFirstEarlyCallExample | src/index.ts:237-244 | A call for a subcollection document made before its parent's write breaks the ordering, even when it is an upload; made after it, it does not. |
| Import.ImportDoc | src/index.ts:234-245 | A document succeeds iff every call made for it succeeded, including its subcollections' imports. Some call is always made for it. A failed resolution ends the document with its error and no write. Otherwise the next call is the write of the resolved data to *collection/id*. On success the document and every document of its subcollections, recursively, were written with data conforming to their own seeds (`DocPlaced`). After a successful write, every document of its immediate subcollections is reached. Nothing is written outside the document and its subcollection tree (`DocTree`). Every call for a document inside a subcollection follows its parent's write. |
| Import.ImportDocuments | src/index.ts:180-248 | Every document of the collection is reached, whatever the outcome. The import succeeds iff every call succeeded. On success every document of the collection and of its subcollection trees, at every depth, was written at its path with data conforming to its own seed (`DocsPlaced`). Nothing is written outside those trees (`DocPaths`). A failure of the first document is the outcome. The database after it is the replay of the successful writes of its trace, and no written data contains the sentinel below its root. Every call for a document inside a subcollection comes after a successful write of its parent, unless that parent is the document the collection itself sits in. |
| Import.WriteBeforeDeferred | src/index.ts:238-243 | After a successful write, the deferred imports' calls need only that document written: the whole run then writes parents first, writes no sentinel, and replays to the written data updated by their writes. |
| Import.RunDeferred | src/index.ts:240-243 | Every document of every deferred import is reached, even after a failure, and a failure of the first import is the outcome. On success every document of their trees, at every depth, was written with data conforming to its own seed (`DeferredPlaced`). Nothing is written outside their trees (`DeferredTree`). Every call for a document in a deferred import follows its parent's write. |
| Import.DocTreePaths | src/index.ts:196-244 | The paths an import may write (`DocTree`) are exactly the paths of the documents it writes on success (`DocPlaced`), at every depth. |
| Import.ImportCollections | src/index.ts:306-308 | Every document of every collection is reached, whatever the outcome, and a failure of the first collection is the outcome. Success iff every call succeeded. On success every document of every collection and of every subcollection below it, at every depth, was written with data conforming to its own seed (`CollectionsPlaced`). Nothing is written outside the collections' trees. The database is the replay of the successful writes, and no written data holds the sentinel below its root. For top-level collections, every call for a subcollection document comes after its parent's successful write in the same run. |
| Import.ImportedExactlyTheTree | src/index.ts:306-308 | After a successful import, the set of documents written is exactly the set of paths of the collections' trees: every document of every collection and of every subcollection below it, at every depth, and nothing else. |
| Builders.DocRef | src/index.ts:267-277 | With a document id, the reference is taken verbatim. Without one, the path is accepted iff it holds exactly one `/`, and then splits into the two separator-free parts around it. Otherwise it fails with `unsupported format`. |
| Builders.DocRefSplitsPath | src/index.ts:267-277 | Giving `collection/document` as one path or as two arguments gives the same reference. |
| Builders.DocRefEmptyPartsExample | src/index.ts:267-277 | `"a/"` and `"/"` are accepted, with empty parts. |
| Builders.DocRefRejects | src/index.ts:269-272 | A path without a `/`, or with two, is refused. |
| Builders.NewImage | src/index.ts:100-108 | A new image has no cached URL. With options, its paths are joined onto the option directories; without options, they are taken as given. |
| Builders.NewImageUploadTarget | src/index.ts:100-123 | An uncached image built with options is uploaded to its remote path joined onto the remote directory, with the first `{id}` replaced by the document id and one leading `/` removed. Its local file is looked up the same way under the local directory, and a missing one fails with `file not found` and the bucket unchanged. |
| Legacy.NewDocument | index.js:140-148 | A document with a null or undefined id is refused; any other id is kept with its data. |
| Legacy.GetCollection | index.js:179-186 | A stored reference wins. Otherwise the collection is the root collection named `name`, and there is none without a name. |
| Legacy.RootCollection | index.js:282-284 | `collection(name, docs)` holds the given documents, and `getCollection` places it at the top-level collection `name`. |
| Legacy.SubcollectionOf | index.js:202-203 | The collection built for a subcollection placeholder holds its documents and has no name. `getCollection` places it at collection `key` of the parent document, through the stored reference. |
| Legacy.ImportLegacy | index.js:187-255 | A collection `getCollection` cannot place fails before any call. Otherwise every document is reached, and the import succeeds iff every call succeeded. On success every document and every document of its subcollection trees, at every depth, was written at its path with data conforming to its own seed. Nothing is written outside those trees. The database is the replay of the successful writes, no sentinel is written below a document's root, and every call for a subcollection document follows its parent's write. |
| Legacy.NewDocumentLands | index.js:239-254 | A document built by `new Document(id, data)` in a collection is reached by the legacy import under *path/id*, and a successful import writes it there with data conforming to `data`. |
| Legacy.RootAgrees | index.js:282-284 | A root collection of the JavaScript build is imported exactly as `collection(name, docs)` in TypeScript. |
| Legacy.SubcollectionAgrees | index.js:202-206 | A legacy subcollection is found through its stored reference, never its (undefined) name, at the target the TypeScript engine defers to. |

## Left out

- Firestore and Cloud Storage clients, `fs.statSync`, `uuid.v4` and `path.join` are outside this model. They are an abstract state plus oracles in `World.Env`: a set of existing local files, sets of failing calls per destination or document path, a token generator indexed by how many tokens were drawn, and a `join` function parameter.
- Real concurrency: interleavings of sibling promises are not modelled; siblings run in program order.
- ImageUploadIdempotent: the image cache takes effect at once here, which the source does not promise. `upload` reads `downloadURL` synchronously (src/index.ts:111) and sets it only after `uploadFile` resolves (src/index.ts:121-122). Every document of a collection (src/index.ts:234-237), and of every top-level collection (src/index.ts:307), starts resolving before any upload finishes. So in the source an instance shared by two occurrences in one document, by sibling documents or by sibling collections is uploaded once per occurrence, each time with that document's id in `{id}`. The model uploads it once and gives every later occurrence the first URL. In the source the cache takes effect only between a parent's write and its subcollection's documents, and only when the upload has finished by then.
- Firestore-native values other than a Timestamp in the caller's data (a DocumentReference, a native GeoPoint, a FieldValue, a Buffer) are not modelled: `Values.Seed` cannot express them. The source's object branch (src/index.ts:206, index.js:213) would rebuild them field by field through `for..in` instead of passing them through.
- Lone surrogates are not modelled: strings here are sequences of Unicode scalar values. In the source a destination holding a lone surrogate makes `encodeURIComponent` (src/index.ts:89) throw a URIError.
- Client-side validation by the Firestore SDK is not modelled. This covers empty or slash-containing ids and keys, GeoPoint ranges, Timestamp ranges and invalid Dates, and the synchronous throws it causes. The only client error modelled is naming a subcollection with no key, at a document's root.
- Date to Timestamp conversion and GeoPoint coordinates are carried opaquely (`Values.Instant`, `Values.Number`); no floating-point arithmetic is modelled.
- A collection name containing `/` is one path segment here. Firestore would parse it into a nested path.
- Object key order: entries are resolved and rebuilt in the order of the seed's field list, which stands for JavaScript's `for..in` enumeration order. Firestore maps are unordered.
- Download-token metadata is the flat map the code reads (`metadata["firebaseStorageDownloadTokens"]`). Any other layout of Cloud Storage metadata is not modelled.
- The CLI wrapper `src/firestore-seed.ts` (reading the seed file, credentials and `process.exit`) and the example scripts are not part of this model.
- `doc`, `subcollection`, `geoPoint` and `imageOptions` are plain constructors. They are the datatype constructors `DocSeed`, `Subcollection`, `Geo` and `Builders.ImageOptions`.
- Resolve.Resolve: for an image, the contract says only that the value is a download URL of the bucket. That the URL names the image's own remote path, with the document id filled in, is stated one level down by `Resolve.ResolveImage`.
- Resolve.Resolve: `requires` that every image placeholder names an existing instance and that every cached URL is a download URL of the bucket. Both always hold in the source, where an instance is an object and its URL is only ever set by `uploadFile`.

## Findings

| source | as written | input that shows it | evidently intended | confidence | as-written member | corrected member |
|---|---|---|---|---|---|---|
| src/index.ts:115-116 (also index.js:110-111) | `path.replace(/\{id\}/, docId)` treats the document id as a replacement pattern, so `$&`, `$$`, `` $` `` and `$'` inside an id are expanded | document id `$&` with remote path `images/{id}`: the path stays `images/{id}` | the first `{id}` is replaced by the document id verbatim (`images/$&`) | medium; not executed | Strings.DollarIdKeepsPlaceholder | Strings.ReplaceFirstVerbatim |

`Strings.ReplaceFirstJs` models the replacement as written and
`Strings.ReplaceFirst` the corrected one. `Strings.ReplaceFirstAgrees` shows
that the two agree for every document id without `$`. The engine
(`Storage.ImageUpload`) follows the code as written, and
`Storage.ImageUploadTarget` states both the path it uploads to and, for ids
without `$`, that this is the corrected path.

=== FILE: builders.dfy ===
/** The seed builders a caller declares data with: `docRef`, which may split
    a `collection/document` path, and `image`, which joins the paths with
    the directories of its options. */
module Builders {
  import opened Results
  import opened Values
  import opened World
  import Strings
  import Storage

  /** `docRef(collection, document)`. Given a document id the reference is
      taken as is; without one, the collection argument must split at `/`
      into exactly two parts, which may be empty. */
  function DocRef(collection: string, document: Option<string>): (r: Result<Seed>)
    ensures document.Some? ==> r == Ok(Ref(collection, document.value))
    ensures document.None? ==> (r.Ok? <==> Strings.Count(collection, '/') == 1)
    ensures document.None? && r.Err? ==> r.error == UnsupportedFormat(collection)
    ensures document.None? && r.Ok? ==>
      && r.value.Ref?
      && r.value.collection + "/" + r.value.document == collection
      && '/' !in r.value.collection && '/' !in r.value.document
  {
    if document.Some? then Ok(Ref(collection, document.value))
    else
      var parts := Strings.Split(collection, '/');
      if |parts| != 2 then Err(UnsupportedFormat(collection))
      else
        Strings.JoinSplit(collection, '/');
        assert Strings.Join(parts, '/') == parts[0] + "/" + parts[1] by {
          assert parts[1..] == [parts[1]];
        }
        assert '/' !in parts[0] && '/' !in parts[1];
        Ok(Ref(parts[0], parts[1]))
  }

  /** Naming the document inside the path or as its own argument gives the
      same reference. */
  lemma DocRefSplitsPath(collection: string, document: string)
    requires '/' !in collection && '/' !in document
    ensures DocRef(collection + "/" + document, None) == DocRef(collection, Some(document))
  {
    Strings.SplitPair(collection, document, '/');
  }

  /** Empty parts are accepted: `a/` names the document with the empty id
      in collection `a`. */
  lemma DocRefEmptyPartsExample()
    ensures DocRef("a/", None) == Ok(Ref("a", ""))
    ensures DocRef("/", None) == Ok(Ref("", ""))
  {
    Strings.SplitPair("a", "", '/');
    Strings.SplitPair("", "", '/');
    assert "a" + "/" + "" == "a/";
    assert "" + "/" + "" == "/";
  }

  /** A path with no separator, or with more than one, is refused. */
  lemma DocRefRejects()
    ensures DocRef("users", None) == Err(UnsupportedFormat("users"))
    ensures DocRef("a/b/c", None) == Err(UnsupportedFormat("a/b/c"))
  {
    assert Strings.Count("users", '/') == 0 by {
      Strings.CountZero("users", '/');
    }
    assert Strings.Count("a/b/c", '/') == 2 by {
      assert "a/b/c"[1..] == "/b/c";
      assert "/b/c"[1..] == "b/c";
      assert "b/c"[1..] == "/c";
      assert "/c"[1..] == "c";
      assert "c"[1..] == "";
    }
  }

  /** The directories of `imageOptions(localDir, remoteDir)`. */
  datatype ImageOptions = ImageOptions(localDir: string, remoteDir: string)

  /** `image(localPath, remotePath, imageOptions)`: with options, both paths
      are joined onto their directories by `join`, which stands for Node's
      `path.join`; the download URL starts out unknown. */
  function NewImage(localPath: string, remotePath: string, options: Option<ImageOptions>,
                    join: (string, string) -> string): (img: ImageSeed)
    ensures img.downloadURL == None
    ensures options.None? ==> img.localPath == localPath && img.remotePath == remotePath
    ensures options.Some? ==>
      img.localPath == join(options.value.localDir, localPath) && img.remotePath == join(options.value.remoteDir, remotePath)
  {
    match options
    case None => ImageSeed(localPath, remotePath, None)
    case Some(o) => ImageSeed(join(o.localDir, localPath), join(o.remoteDir, remotePath), None)
  }

  /** An image built with options is uploaded to its remote path joined
      onto the remote directory, with the first `{id}` replaced by the
      document's id and a leading `/` dropped; its local file is looked up
      the same way under the local directory. */
  lemma NewImageUploadTarget(env: Env, st: State, doc: DocPath, id: ImageId, docId: string,
                             localPath: string, remotePath: string, o: ImageOptions, join: (string, string) -> string)
    requires id in st.images && st.images[id] == NewImage(localPath, remotePath, Some(o), join)
    ensures var r := Storage.ImageUpload(env, st, doc, id, docId);
      var dest := Storage.StripLeadingSlash(Strings.ReplaceFirstJs(join(o.remoteDir, remotePath), Strings.IdPlaceholder, docId));
      r.result.Ok? ==> Storage.IsDownloadURLOf(env, r.st.blobs, dest, r.result.value)
    ensures var r := Storage.ImageUpload(env, st, doc, id, docId);
      var local := Strings.ReplaceFirstJs(join(o.localDir, localPath), Strings.IdPlaceholder, docId);
      local !in env.localFiles ==> r.result == Err(FileNotFound(local)) && r.st.blobs == st.blobs
  {
    Storage.ImageUploadTarget(env, st, doc, id, docId);
    if Strings.ReplaceFirstJs(join(o.localDir, localPath), Strings.IdPlaceholder, docId) !in env.localFiles {
      Storage.ImageUploadMissingFile(env, st, doc, id, docId);
    }
  }
}

=== FILE: import.dfy ===
/** `CollectionSeed.importDocuments` and `importCollections`: every document
    of a collection is resolved and written, and once its write has gone
    through, the imports its subcollections deferred are run below it.
    Sibling documents, sibling deferred imports and sibling collections all
    run, whatever happens to the others, and the first failure among them is
    the outcome; the model runs them one after another, in order. */
module Import {
  import opened Results
  import opened Values
  import opened World
  import Resolve

  /** A collection to import: its documents and the path of the collection
      they are written to. */
  datatype CollectionSeed = CollectionSeed(docs: seq<DocSeed>, path: seq<string>)

  /** `collection(name, docs)`: a top-level collection. */
  function Collection(name: string, docs: seq<DocSeed>): (c: CollectionSeed)
    ensures c.docs == docs && |c.path| == 1 && c.path[0] == name
  {
    CollectionSeed(docs, [name])
  }

  // ---------------------------------------------------------------------
  // The database as the trace's successful writes make it.

  function ApplyWrite(docs: map<DocPath, Data>, e: Event): map<DocPath, Data>
  {
    if e.op.Write? && e.ok then docs[e.doc := e.op.data] else docs
  }

  /** The documents after the successful writes of `events`, in order. */
  function Replay(docs: map<DocPath, Data>, events: seq<Event>): map<DocPath, Data>
    decreases |events|
  {
    if |events| == 0 then docs else Replay(ApplyWrite(docs, events[0]), events[1..])
  }

  lemma {:induction false} ReplayAppend(docs: map<DocPath, Data>, a: seq<Event>, b: seq<Event>)
    ensures Replay(docs, a + b) == Replay(Replay(docs, a), b)
    decreases |a|
  {
    if |a| == 0 {
      assert a + b == b;
    } else {
      assert (a + b)[0] == a[0];
      assert (a + b)[1..] == a[1..] + b;
      ReplayAppend(ApplyWrite(docs, a[0]), a[1..], b);
    }
  }

  /** The calls made while resolving a document write nothing. */
  lemma {:induction false} ReplayResolution(docs: map<DocPath, Data>, events: seq<Event>, doc: DocPath)
    requires EventsFor(events, doc)
    ensures Replay(docs, events) == docs
    decreases |events|
  {
    if |events| > 0 {
      ReplayResolution(docs, events[1..], doc);
    }
  }

  // ---------------------------------------------------------------------
  // Parents first.

  /** `w` and the documents `events` writes successfully. */
  function Written(w: set<DocPath>, events: seq<Event>): (r: set<DocPath>)
    ensures w <= r
    decreases |events|
  {
    if |events| == 0 then w
    else Written(if events[0].op.Write? && events[0].ok then w + {events[0].doc} else w, events[1..])
  }

  /** Every call made for a document inside a subcollection, its write and
      the calls resolving its data alike, comes after a successful write of
      its parent document, either among `w` or earlier in `events`. */
  predicate ParentsFirst(w: set<DocPath>, events: seq<Event>)
    decreases |events|
  {
    if |events| == 0 then true
    else
      var e := events[0];
      && (|e.doc| > 2 ==> e.doc[..|e.doc| - 2] in w)
      && ParentsFirst(if e.op.Write? && e.ok then w + {e.doc} else w, events[1..])
  }

  lemma {:induction false} ParentsFirstAppend(w: set<DocPath>, a: seq<Event>, b: seq<Event>)
    requires ParentsFirst(w, a) && ParentsFirst(Written(w, a), b)
    ensures ParentsFirst(w, a + b) && Written(w, a + b) == Written(Written(w, a), b)
    decreases |a|
  {
    if |a| == 0 {
      assert a + b == b;
    } else {
      assert (a + b)[0] == a[0];
      assert (a + b)[1..] == a[1..] + b;
      var e := a[0];
      ParentsFirstAppend(if e.op.Write? && e.ok then w + {e.doc} else w, a[1..], b);
    }
  }

  /** More documents written beforehand only help. */
  lemma {:induction false} ParentsFirstMonotone(w: set<DocPath>, w': set<DocPath>, events: seq<Event>)
    requires w <= w' && ParentsFirst(w, events)
    ensures ParentsFirst(w', events) && Written(w, events) <= Written(w', events)
    decreases |events|
  {
    if |events| > 0 {
      var e := events[0];
      ParentsFirstMonotone(
        if e.op.Write? && e.ok then w + {e.doc} else w,
        if e.op.Write? && e.ok then w' + {e.doc} else w',
        events[1..]);
    }
  }

  /** Two runs that each write parents first, given `w`, do so in turn. */
  lemma ParentsFirstJoin(w: set<DocPath>, a: seq<Event>, b: seq<Event>)
    ensures ParentsFirst(w, a) && ParentsFirst(w, b) ==> ParentsFirst(w, a + b)
  {
    if ParentsFirst(w, a) && ParentsFirst(w, b) {
      ParentsFirstMonotone(w, Written(w, a), b);
      ParentsFirstAppend(w, a, b);
    }
  }

  /** The calls resolving a document whose parent has been written. */
  lemma {:induction false} ParentsFirstResolution(w: set<DocPath>, events: seq<Event>, doc: DocPath)
    requires EventsFor(events, doc) && DocParent(doc) <= w
    ensures ParentsFirst(w, events) && Written(w, events) == w
    decreases |events|
  {
    if |events| > 0 {
      ParentsFirstResolution(w, events[1..], doc);
    }
  }

  /** An upload for a subcollection document before its parent is written
      breaks the ordering, even though it is no write. */
  lemma ParentsFirstEarlyCallExample()
    ensures !ParentsFirst({}, [Event(["c", "d", "k", "e"], Upload("f", "x"), true),
                               Event(["c", "d"], Write(MapValue([])), true)])
    ensures ParentsFirst({}, [Event(["c", "d"], Write(MapValue([])), true),
                              Event(["c", "d", "k", "e"], Upload("f", "x"), true)])
  {
    var early: DocPath := ["c", "d", "k", "e"];
    assert early[..2] == ["c", "d"];
  }

  /** The document a collection at `path` sits in, if it is a subcollection. */
  function ParentOf(path: seq<string>): set<DocPath>
  {
    if |path| >= 2 then {path[..|path| - 1]} else {}
  }

  /** The documents the targets of `ds` sit in. */
  function TargetParents(ds: seq<Resolve.Deferred>): set<DocPath>
  {
    if |ds| == 0 then {} else ParentOf(ds[0].target) + TargetParents(ds[1..])
  }

  // ---------------------------------------------------------------------
  // No sentinel is ever written.

  /** Every document write in `events` is of data free of the sentinel
      below its root. */
  predicate CleanWrites(events: seq<Event>)
  {
    forall i :: 0 <= i < |events| && events[i].op.Write? ==> NoDeletedChild(events[i].op.data)
  }

  lemma CleanAppend(a: seq<Event>, b: seq<Event>)
    requires CleanWrites(a) && CleanWrites(b)
    ensures CleanWrites(a + b)
  {
    forall i | 0 <= i < |a + b| && (a + b)[i].op.Write?
      ensures NoDeletedChild((a + b)[i].op.data)
    {
      if i < |a| {
        assert (a + b)[i] == a[i];
      } else {
        assert (a + b)[i] == b[i - |a|];
      }
    }
  }

  // ---------------------------------------------------------------------
  // Termination: deferred imports hold smaller seeds than their document.

  function DeferredSize(ds: seq<Resolve.Deferred>): nat
  {
    if |ds| == 0 then 0 else DocsSize(ds[0].docs) + DeferredSize(ds[1..])
  }

  predicate DeferredImagesIn(ds: seq<Resolve.Deferred>, ids: set<ImageId>)
  {
    forall i :: 0 <= i < |ds| ==> DocsImagesIn(ds[i].docs, ids)
  }

  /** The deferred imports of a document: their size is that of the
      subcollections found, their images are among `ids`, and their targets
      all sit in the document. */
  lemma {:induction false} DeferAllFacts(ctx: Resolve.Ctx, subs: seq<Field<seq<DocSeed>>>, ids: set<ImageId>)
    requires Resolve.SubsImagesIn(subs, ids)
    ensures DeferredSize(Resolve.DeferAll(ctx, subs)) == Resolve.SubsSize(subs)
    ensures DeferredImagesIn(Resolve.DeferAll(ctx, subs), ids)
    ensures TargetParents(Resolve.DeferAll(ctx, subs)) <= {Resolve.DocPathOf(ctx)}
    decreases |subs|
  {
    if |subs| > 0 {
      var ds := Resolve.DeferAll(ctx, subs);
      assert ds[1..] == Resolve.DeferAll(ctx, subs[1..]);
      DeferAllFacts(ctx, subs[1..], ids);
      var t := ds[0].target;
      assert t[..|t| - 1] == Resolve.DocPathOf(ctx);
    }
  }

  /** The sizes of the deferred imports of a document, whatever its images. */
  lemma {:induction false} DeferAllSize(ctx: Resolve.Ctx, subs: seq<Field<seq<DocSeed>>>)
    ensures DeferredSize(Resolve.DeferAll(ctx, subs)) == Resolve.SubsSize(subs)
    decreases |subs|
  {
    if |subs| > 0 {
      assert Resolve.DeferAll(ctx, subs)[1..] == Resolve.DeferAll(ctx, subs[1..]);
      DeferAllSize(ctx, subs[1..]);
    }
  }

  // ---------------------------------------------------------------------
  // Which documents an import reaches, and which it writes.

  /** Some call was made for the document at `path`. */
  predicate Touched(events: seq<Event>, path: DocPath)
  {
    exists j :: 0 <= j < |events| && events[j].doc == path
  }

  /** The document at `path` was written successfully with a resolution of
      the seed data `v`. */
  ghost predicate WroteConforming(bucket: string, events: seq<Event>, path: DocPath, v: Seed)
  {
    exists data :: Resolve.Conforms(bucket, v, data) && Event(path, Write(data), true) in events
  }

  /** A call was made for every document of `docs` in `collection`. */
  predicate AllAttempted(events: seq<Event>, collection: seq<string>, docs: seq<DocSeed>)
  {
    forall i :: 0 <= i < |docs| ==> Touched(events, collection + [docs[i].id])
  }

  /** Every document of `docs` was written in `collection` with a
      resolution of its seed data. */
  ghost predicate AllWritten(bucket: string, events: seq<Event>, collection: seq<string>, docs: seq<DocSeed>)
  {
    forall i :: 0 <= i < |docs| ==> WroteConforming(bucket, events, collection + [docs[i].id], docs[i].data)
  }

  predicate DeferredAttempted(events: seq<Event>, ds: seq<Resolve.Deferred>)
  {
    forall k :: 0 <= k < |ds| ==> AllAttempted(events, ds[k].target, ds[k].docs)
  }

  ghost predicate DeferredWritten(bucket: string, events: seq<Event>, ds: seq<Resolve.Deferred>)
  {
    forall k :: 0 <= k < |ds| ==> AllWritten(bucket, events, ds[k].target, ds[k].docs)
  }

  predicate CollectionsAttempted(events: seq<Event>, cs: seq<CollectionSeed>)
  {
    forall i :: 0 <= i < |cs| ==> AllAttempted(events, cs[i].path, cs[i].docs)
  }

  ghost predicate CollectionsWritten(bucket: string, events: seq<Event>, cs: seq<CollectionSeed>)
  {
    forall i :: 0 <= i < |cs| ==> AllWritten(bucket, events, cs[i].path, cs[i].docs)
  }

  /** A recorded call stays recorded when calls are added around it. */
  lemma TouchedAppend(a: seq<Event>, b: seq<Event>, path: DocPath)
    ensures Touched(a, path) || Touched(b, path) ==> Touched(a + b, path)
  {
    if Touched(a, path) {
      var j :| 0 <= j < |a| && a[j].doc == path;
      assert (a + b)[j] == a[j];
    } else if Touched(b, path) {
      var j :| 0 <= j < |b| && b[j].doc == path;
      assert (a + b)[|a| + j] == b[j];
    }
  }

  lemma WroteAppend(bucket: string, a: seq<Event>, b: seq<Event>, path: DocPath, v: Seed)
    ensures WroteConforming(bucket, a, path, v) || WroteConforming(bucket, b, path, v) ==> WroteConforming(bucket, a + b, path, v)
  {
    if WroteConforming(bucket, a, path, v) {
      var data :| Resolve.Conforms(bucket, v, data) && Event(path, Write(data), true) in a;
      assert Event(path, Write(data), true) in a + b;
    } else if WroteConforming(bucket, b, path, v) {
      var data :| Resolve.Conforms(bucket, v, data) && Event(path, Write(data), true) in b;
      assert Event(path, Write(data), true) in a + b;
    }
  }

  lemma CollectionAppend(bucket: string, a: seq<Event>, b: seq<Event>, collection: seq<string>, docs: seq<DocSeed>)
    ensures AllAttempted(a, collection, docs) || AllAttempted(b, collection, docs) ==> AllAttempted(a + b, collection, docs)
    ensures AllWritten(bucket, a, collection, docs) || AllWritten(bucket, b, collection, docs) ==> AllWritten(bucket, a + b, collection, docs)
  {
    forall i | 0 <= i < |docs|
      ensures Touched(a, collection + [docs[i].id]) || Touched(b, collection + [docs[i].id]) ==> Touched(a + b, collection + [docs[i].id])
      ensures WroteConforming(bucket, a, collection + [docs[i].id], docs[i].data) || WroteConforming(bucket, b, collection + [docs[i].id], docs[i].data) ==>
        WroteConforming(bucket, a + b, collection + [docs[i].id], docs[i].data)
    {
      TouchedAppend(a, b, collection + [docs[i].id]);
      WroteAppend(bucket, a, b, collection + [docs[i].id], docs[i].data);
    }
  }

  /** The first document's calls followed by the rest's cover them all. */
  lemma CollectionCons(bucket: string, a: seq<Event>, b: seq<Event>, collection: seq<string>, docs: seq<DocSeed>)
    requires |docs| > 0
    ensures Touched(a, collection + [docs[0].id]) && AllAttempted(b, collection, docs[1..]) ==> AllAttempted(a + b, collection, docs)
    ensures WroteConforming(bucket, a, collection + [docs[0].id], docs[0].data) && AllWritten(bucket, b, collection, docs[1..]) ==>
      AllWritten(bucket, a + b, collection, docs)
  {
    forall i | 0 <= i < |docs|
      ensures Touched(a, collection + [docs[0].id]) && AllAttempted(b, collection, docs[1..]) ==> Touched(a + b, collection + [docs[i].id])
      ensures WroteConforming(bucket, a, collection + [docs[0].id], docs[0].data) && AllWritten(bucket, b, collection, docs[1..]) ==>
        WroteConforming(bucket, a + b, collection + [docs[i].id], docs[i].data)
    {
      if i > 0 {
        assert docs[i] == docs[1..][i - 1];
      }
      TouchedAppend(a, b, collection + [docs[i].id]);
      WroteAppend(bucket, a, b, collection + [docs[i].id], docs[i].data);
    }
  }

  lemma DeferredGrow(bucket: string, a: seq<Event>, b: seq<Event>, ds: seq<Resolve.Deferred>)
    ensures DeferredAttempted(b, ds) ==> DeferredAttempted(a + b, ds)
    ensures DeferredWritten(bucket, b, ds) ==> DeferredWritten(bucket, a + b, ds)
  {
    forall k | 0 <= k < |ds|
      ensures AllAttempted(b, ds[k].target, ds[k].docs) ==> AllAttempted(a + b, ds[k].target, ds[k].docs)
      ensures AllWritten(bucket, b, ds[k].target, ds[k].docs) ==> AllWritten(bucket, a + b, ds[k].target, ds[k].docs)
    {
      CollectionAppend(bucket, a, b, ds[k].target, ds[k].docs);
    }
  }

  lemma DeferredCons(bucket: string, a: seq<Event>, b: seq<Event>, ds: seq<Resolve.Deferred>)
    requires |ds| > 0
    ensures AllAttempted(a, ds[0].target, ds[0].docs) && DeferredAttempted(b, ds[1..]) ==> DeferredAttempted(a + b, ds)
    ensures AllWritten(bucket, a, ds[0].target, ds[0].docs) && DeferredWritten(bucket, b, ds[1..]) ==>
      DeferredWritten(bucket, a + b, ds)
  {
    forall k | 0 <= k < |ds|
      ensures AllAttempted(a, ds[0].target, ds[0].docs) && DeferredAttempted(b, ds[1..]) ==> AllAttempted(a + b, ds[k].target, ds[k].docs)
      ensures AllWritten(bucket, a, ds[0].target, ds[0].docs) && DeferredWritten(bucket, b, ds[1..]) ==>
        AllWritten(bucket, a + b, ds[k].target, ds[k].docs)
    {
      if k > 0 {
        assert ds[k] == ds[1..][k - 1];
      }
      CollectionAppend(bucket, a, b, ds[k].target, ds[k].docs);
    }
  }

  lemma CollectionsCons(bucket: string, a: seq<Event>, b: seq<Event>, cs: seq<CollectionSeed>)
    requires |cs| > 0
    ensures AllAttempted(a, cs[0].path, cs[0].docs) && CollectionsAttempted(b, cs[1..]) ==> CollectionsAttempted(a + b, cs)
    ensures AllWritten(bucket, a, cs[0].path, cs[0].docs) && CollectionsWritten(bucket, b, cs[1..]) ==>
      CollectionsWritten(bucket, a + b, cs)
  {
    forall k | 0 <= k < |cs|
      ensures AllAttempted(a, cs[0].path, cs[0].docs) && CollectionsAttempted(b, cs[1..]) ==> AllAttempted(a + b, cs[k].path, cs[k].docs)
      ensures AllWritten(bucket, a, cs[0].path, cs[0].docs) && CollectionsWritten(bucket, b, cs[1..]) ==>
        AllWritten(bucket, a + b, cs[k].path, cs[k].docs)
    {
      if k > 0 {
        assert cs[k] == cs[1..][k - 1];
      }
      CollectionAppend(bucket, a, b, cs[k].path, cs[k].docs);
    }
  }

  /** A document of an import tree: where it is written, and the seed data
      it is written from. */
  datatype Placed = Placed(path: DocPath, data: Seed)

  /** The documents the import of `d` into `collection` writes: `d`
      itself, and below it the documents of every subcollection its data
      holds, recursively. */
  function DocPlaced(collection: seq<string>, d: DocSeed): set<Placed>
    decreases DocSize(d), 0, 0
  {
    var ctx := Resolve.Ctx(collection, d.id);
    var subs := Resolve.Subcollections(None, d.data);
    Resolve.SubcollectionsBounded(None, d.data, {});
    DeferAllSize(ctx, subs);
    {Placed(Resolve.DocPathOf(ctx), d.data)} + DeferredPlaced(Resolve.DeferAll(ctx, subs))
  }

  function DocsPlaced(collection: seq<string>, docs: seq<DocSeed>): set<Placed>
    decreases DocsSize(docs), 1, 0
  {
    if |docs| == 0 then {} else DocPlaced(collection, docs[0]) + DocsPlaced(collection, docs[1..])
  }

  function DeferredPlaced(ds: seq<Resolve.Deferred>): set<Placed>
    decreases DeferredSize(ds), 2, |ds|
  {
    if |ds| == 0 then {} else DocsPlaced(ds[0].target, ds[0].docs) + DeferredPlaced(ds[1..])
  }

  function CollectionsPlaced(cs: seq<CollectionSeed>): set<Placed>
  {
    if |cs| == 0 then {} else DocsPlaced(cs[0].path, cs[0].docs) + CollectionsPlaced(cs[1..])
  }

  /** The paths the import of `d` into `collection` may write: those of
      `DocPlaced(collection, d)`, by the same recursion. */
  function DocTree(collection: seq<string>, d: DocSeed): set<DocPath>
    decreases DocSize(d), 0, 0
  {
    var ctx := Resolve.Ctx(collection, d.id);
    var subs := Resolve.Subcollections(None, d.data);
    Resolve.SubcollectionsBounded(None, d.data, {});
    DeferAllSize(ctx, subs);
    {Resolve.DocPathOf(ctx)} + DeferredTree(Resolve.DeferAll(ctx, subs))
  }

  function DocPaths(collection: seq<string>, docs: seq<DocSeed>): set<DocPath>
    decreases DocsSize(docs), 1, 0
  {
    if |docs| == 0 then {} else DocTree(collection, docs[0]) + DocPaths(collection, docs[1..])
  }

  function DeferredTree(ds: seq<Resolve.Deferred>): set<DocPath>
    decreases DeferredSize(ds), 2, |ds|
  {
    if |ds| == 0 then {} else DocPaths(ds[0].target, ds[0].docs) + DeferredTree(ds[1..])
  }

  function CollectionsTree(cs: seq<CollectionSeed>): set<DocPath>
  {
    if |cs| == 0 then {} else DocPaths(cs[0].path, cs[0].docs) + CollectionsTree(cs[1..])
  }

  /** `paths` are the paths of the documents of `ps`. */
  ghost predicate PathsOf(ps: set<Placed>, paths: set<DocPath>)
  {
    && (forall p :: p in ps ==> p.path in paths)
    && (forall q :: q in paths ==> exists v :: Placed(q, v) in ps)
  }

  lemma PathsOfUnion(ps: set<Placed>, paths: set<DocPath>, qs: set<Placed>, others: set<DocPath>)
    requires PathsOf(ps, paths) && PathsOf(qs, others)
    ensures PathsOf(ps + qs, paths + others)
  {
    forall q | q in paths + others
      ensures exists v :: Placed(q, v) in ps + qs
    {
      if q in paths {
        var v :| Placed(q, v) in ps;
        assert Placed(q, v) in ps + qs;
      } else {
        var v :| Placed(q, v) in qs;
        assert Placed(q, v) in ps + qs;
      }
    }
  }

  /** The path trees are the paths of the document trees. */
  lemma {:induction false} DocTreePaths(collection: seq<string>, d: DocSeed)
    ensures PathsOf(DocPlaced(collection, d), DocTree(collection, d))
    decreases DocSize(d), 0, 0
  {
    var ctx := Resolve.Ctx(collection, d.id);
    var subs := Resolve.Subcollections(None, d.data);
    Resolve.SubcollectionsBounded(None, d.data, {});
    DeferAllSize(ctx, subs);
    DeferredTreePaths(Resolve.DeferAll(ctx, subs));
    assert PathsOf({Placed(Resolve.DocPathOf(ctx), d.data)}, {Resolve.DocPathOf(ctx)});
    PathsOfUnion({Placed(Resolve.DocPathOf(ctx), d.data)}, {Resolve.DocPathOf(ctx)},
                 DeferredPlaced(Resolve.DeferAll(ctx, subs)), DeferredTree(Resolve.DeferAll(ctx, subs)));
  }

  lemma {:induction false} DocPathsPaths(collection: seq<string>, docs: seq<DocSeed>)
    ensures PathsOf(DocsPlaced(collection, docs), DocPaths(collection, docs))
    decreases DocsSize(docs), 1, 0
  {
    if |docs| > 0 {
      DocTreePaths(collection, docs[0]);
      DocPathsPaths(collection, docs[1..]);
      PathsOfUnion(DocPlaced(collection, docs[0]), DocTree(collection, docs[0]),
                   DocsPlaced(collection, docs[1..]), DocPaths(collection, docs[1..]));
    }
  }

  lemma {:induction false} DeferredTreePaths(ds: seq<Resolve.Deferred>)
    ensures PathsOf(DeferredPlaced(ds), DeferredTree(ds))
    decreases DeferredSize(ds), 2, |ds|
  {
    if |ds| > 0 {
      DocPathsPaths(ds[0].target, ds[0].docs);
      DeferredTreePaths(ds[1..]);
      PathsOfUnion(DocsPlaced(ds[0].target, ds[0].docs), DocPaths(ds[0].target, ds[0].docs),
                   DeferredPlaced(ds[1..]), DeferredTree(ds[1..]));
    }
  }

  lemma {:induction false} CollectionsTreePaths(cs: seq<CollectionSeed>)
    ensures PathsOf(CollectionsPlaced(cs), CollectionsTree(cs))
  {
    if |cs| > 0 {
      DocPathsPaths(cs[0].path, cs[0].docs);
      CollectionsTreePaths(cs[1..]);
      PathsOfUnion(DocsPlaced(cs[0].path, cs[0].docs), DocPaths(cs[0].path, cs[0].docs),
                   CollectionsPlaced(cs[1..]), CollectionsTree(cs[1..]));
    }
  }

  /** Every document of the tree `ps` was written successfully with a
      resolution of its seed data. */
  ghost predicate TreeWritten(bucket: string, events: seq<Event>, ps: set<Placed>)
  {
    forall p :: p in ps ==> WroteConforming(bucket, events, p.path, p.data)
  }

  /** A written tree stays written when calls are added around it. */
  lemma TreeWrittenGrow(bucket: string, a: seq<Event>, b: seq<Event>, p: set<Placed>)
    ensures TreeWritten(bucket, a, p) || TreeWritten(bucket, b, p) ==> TreeWritten(bucket, a + b, p)
  {
    forall x | x in p
      ensures WroteConforming(bucket, a, x.path, x.data) || WroteConforming(bucket, b, x.path, x.data) ==>
        WroteConforming(bucket, a + b, x.path, x.data)
    {
      WroteAppend(bucket, a, b, x.path, x.data);
    }
  }

  /** Two trees written by two runs are written by the runs in turn. */
  lemma TreeWrittenAppend(bucket: string, a: seq<Event>, b: seq<Event>, p: set<Placed>, q: set<Placed>)
    ensures TreeWritten(bucket, a, p) && TreeWritten(bucket, b, q) ==> TreeWritten(bucket, a + b, p + q)
  {
    TreeWrittenGrow(bucket, a, b, p);
    TreeWrittenGrow(bucket, a, b, q);
  }

  /** Every document write in `events` is at one of `paths`. */
  predicate WritesIn(events: seq<Event>, paths: set<DocPath>)
  {
    forall i :: 0 <= i < |events| && events[i].op.Write? ==> events[i].doc in paths
  }

  lemma WritesInAppend(a: seq<Event>, b: seq<Event>, p: set<DocPath>, q: set<DocPath>)
    requires WritesIn(a, p) && WritesIn(b, q)
    ensures WritesIn(a + b, p + q)
  {
    forall i | 0 <= i < |a + b| && (a + b)[i].op.Write?
      ensures (a + b)[i].doc in p + q
    {
      if i < |a| {
        assert (a + b)[i] == a[i];
      } else {
        assert (a + b)[i] == b[i - |a|];
      }
    }
  }

  // ---------------------------------------------------------------------
  // The import.

  /** `importDocuments` of the collection at `collection`. */
  function ImportDocuments(env: Env, st: State, collection: seq<string>, docs: seq<DocSeed>): (r: Step<()>)
    requires DocsImagesIn(docs, st.images.Keys) && Resolve.ValidCache(env, st)
    ensures r.st.images.Keys == st.images.Keys && Resolve.ValidCache(env, r.st)
    ensures st.trace <= r.st.trace
    ensures r.result.Ok? <==> AllOk(Since(st, r.st))
    ensures r.st.docs == Replay(st.docs, Since(st, r.st))
    ensures ParentsFirst(ParentOf(collection), Since(st, r.st))
    ensures CleanWrites(Since(st, r.st))
    ensures AllAttempted(Since(st, r.st), collection, docs)
    ensures r.result.Ok? ==> AllWritten(env.bucketName, Since(st, r.st), collection, docs)
    ensures WritesIn(Since(st, r.st), DocPaths(collection, docs))
    ensures r.result.Ok? ==> TreeWritten(env.bucketName, Since(st, r.st), DocsPlaced(collection, docs))
    ensures |docs| > 0 ==> var head := ImportDoc(env, st, collection, docs[0]);
      head.st.trace <= r.st.trace && (head.result.Err? ==> r.result == head.result)
    decreases DocsSize(docs), 1, 0
  {
    if |docs| == 0 then Step(Ok(()), st)
    else
      var head := ImportDoc(env, st, collection, docs[0]);
      var rest := ImportDocuments(env, head.st, collection, docs[1..]);
      var a := Since(st, head.st);
      var b := Since(head.st, rest.st);
      SinceChain(st, head.st, rest.st);
      AllOkAppend(a, b);
      ReplayAppend(st.docs, a, b);
      ParentsFirstMonotone(ParentOf(collection), Written(ParentOf(collection), a), b);
      ParentsFirstAppend(ParentOf(collection), a, b);
      CleanAppend(a, b);
      CollectionCons(env.bucketName, a, b, collection, docs);
      WritesInAppend(a, b, DocTree(collection, docs[0]), DocPaths(collection, docs[1..]));
      TreeWrittenAppend(env.bucketName, a, b, DocPlaced(collection, docs[0]), DocsPlaced(collection, docs[1..]));
      Step(Both(head.result, rest.result), rest.st)
  }

  /** One document: resolve its data; if that went through, write it; if
      the write went through, run the imports its subcollections
      deferred. */
  function ImportDoc(env: Env, st: State, collection: seq<string>, d: DocSeed): (r: Step<()>)
    requires DocImagesIn(d, st.images.Keys) && Resolve.ValidCache(env, st)
    ensures r.st.images.Keys == st.images.Keys && Resolve.ValidCache(env, r.st)
    ensures st.trace <= r.st.trace
    ensures r.result.Ok? <==> AllOk(Since(st, r.st))
    ensures r.st.docs == Replay(st.docs, Since(st, r.st))
    ensures ParentsFirst(ParentOf(collection), Since(st, r.st))
    ensures CleanWrites(Since(st, r.st))
    ensures Touched(Since(st, r.st), collection + [d.id])
    ensures WritesIn(Since(st, r.st), DocTree(collection, d))
    ensures r.result.Ok? ==> TreeWritten(env.bucketName, Since(st, r.st), DocPlaced(collection, d))
    ensures r.result.Ok? ==> WroteConforming(env.bucketName, Since(st, r.st), collection + [d.id], d.data)
    ensures r.result.Ok? ==>
      DeferredWritten(env.bucketName, Since(st, r.st), Resolve.DeferAll(Resolve.Ctx(collection, d.id), Resolve.Subcollections(None, d.data)))
    ensures var res := Resolve.Resolve(env, st, Resolve.Ctx(collection, d.id), None, d.data);
      && res.st.trace <= r.st.trace
      && (res.result.Err? ==> r == Step(Err(res.result.error), res.st))
      && (res.result.Err? ==> forall i :: 0 <= i < |Since(st, r.st)| ==> !Since(st, r.st)[i].op.Write?)
      && (res.result.Ok? ==>
            && |res.st.trace| < |r.st.trace|
            && r.st.trace[|res.st.trace|] == Event(collection + [d.id], Write(res.result.value), collection + [d.id] !in env.faults.write))
      && (res.result.Ok? && collection + [d.id] !in env.faults.write ==> DeferredAttempted(Since(st, r.st), res.deferred))
    decreases DocSize(d), 0, 0
  {
    var ctx := Resolve.Ctx(collection, d.id);
    var path := Resolve.DocPathOf(ctx);
    var res := Resolve.Resolve(env, st, ctx, None, d.data);
    var a := Since(st, res.st);
    ReplayResolution(st.docs, a, path);
    assert |path| > 2 ==> path[..|path| - 2] == collection[..|collection| - 1];
    assert DocParent(path) <= ParentOf(collection);
    ParentsFirstResolution(ParentOf(collection), a, path);
    assert CleanWrites(a);
    assert WritesIn(a, {});
    if res.result.Err? then
      assert !AllOk(a);
      Step(Err(res.result.error), res.st)
    else
      var data := res.result.value;
      Resolve.ConformsNoDeleted(env.bucketName, d.data, data);
      Resolve.SubcollectionsBounded(None, d.data, st.images.Keys);
      DeferAllFacts(ctx, Resolve.Subcollections(None, d.data), st.images.Keys);
      var w := WriteThenRun(env, res.st, path, data, res.deferred);
      var b := Since(res.st, w.st);
      SinceChain(st, res.st, w.st);
      ReplayAppend(st.docs, a, b);
      ResolvedThenWritten(env.bucketName, ParentOf(collection), d.data, path, data, res.deferred, a, b);
      w
  }

  /** The calls resolving the document at `path` followed by those of its
      write and deferred imports. */
  lemma ResolvedThenWritten(bucket: string, w: set<DocPath>, v: Seed, path: DocPath, data: Data,
                            ds: seq<Resolve.Deferred>, a: seq<Event>, b: seq<Event>)
    requires EventsFor(a, path) && AllOk(a) && ParentsFirst(w, a) && Written(w, a) == w && CleanWrites(a)
    requires DocParent(path) <= w && Resolve.Conforms(bucket, v, data)
    requires |b| >= 1 && b[0].doc == path && b[0].op == Write(data)
    requires ParentsFirst(DocParent(path), b) && CleanWrites(b)
    requires WritesIn(b, {path} + DeferredTree(ds))
    requires b[0].ok ==> DeferredAttempted(b, ds)
    requires AllOk(b) ==> DeferredWritten(bucket, b, ds) && TreeWritten(bucket, b, DeferredPlaced(ds))
    ensures AllOk(a + b) <==> AllOk(b)
    ensures ParentsFirst(w, a + b) && CleanWrites(a + b)
    ensures Touched(a + b, path) && WritesIn(a + b, {path} + DeferredTree(ds))
    ensures (a + b)[|a|] == b[0]
    ensures b[0].ok ==> DeferredAttempted(a + b, ds)
    ensures AllOk(b) ==> WroteConforming(bucket, a + b, path, v) && DeferredWritten(bucket, a + b, ds)
    ensures AllOk(b) ==> TreeWritten(bucket, a + b, {Placed(path, v)} + DeferredPlaced(ds))
  {
    AllOkAppend(a, b);
    ParentsFirstMonotone(DocParent(path), w, b);
    ParentsFirstAppend(w, a, b);
    CleanAppend(a, b);
    assert (a + b)[|a|] == b[0];
    if AllOk(b) {
      assert b[0] == Event(path, Write(data), true);
      assert Event(path, Write(data), true) in a + b;
    }
    assert Touched(b, path);
    TouchedAppend(a, b, path);
    assert WritesIn(a, {});
    WritesInAppend(a, b, {}, {path} + DeferredTree(ds));
    DeferredGrow(bucket, a, b, ds);
    TreeWrittenGrow(bucket, a, b, DeferredPlaced(ds));
    TreeWrittenCons(bucket, a + b, Placed(path, v), DeferredPlaced(ds));
  }

  /** A document written, and the tree below it written. */
  lemma TreeWrittenCons(bucket: string, events: seq<Event>, p: Placed, q: set<Placed>)
    ensures WroteConforming(bucket, events, p.path, p.data) && TreeWritten(bucket, events, q) ==>
      TreeWritten(bucket, events, {p} + q)
  {
  }

  /** The document a document at `path` sits in, if it is inside a
      subcollection. */
  function DocParent(path: DocPath): set<DocPath>
  {
    if |path| > 2 then {path[..|path| - 2]} else {}
  }

  /** The rest of one document's import once its data has resolved to
      `data`: the write, and after a successful write the deferred
      imports. */
  function WriteThenRun(env: Env, st: State, path: DocPath, data: Data, ds: seq<Resolve.Deferred>): (r: Step<()>)
    requires DeferredImagesIn(ds, st.images.Keys) && Resolve.ValidCache(env, st)
    requires NoDeletedChild(data) && TargetParents(ds) <= {path}
    ensures r.st.images.Keys == st.images.Keys && Resolve.ValidCache(env, r.st)
    ensures st.trace <= r.st.trace && |Since(st, r.st)| >= 1
    ensures Since(st, r.st)[0] == Event(path, Write(data), path !in env.faults.write)
    ensures r.result.Ok? <==> AllOk(Since(st, r.st))
    ensures r.st.docs == Replay(st.docs, Since(st, r.st))
    ensures ParentsFirst(DocParent(path), Since(st, r.st))
    ensures CleanWrites(Since(st, r.st))
    ensures path in env.faults.write ==> r.result == Err(WriteFailure(path)) && |Since(st, r.st)| == 1
    ensures WritesIn(Since(st, r.st), {path} + DeferredTree(ds))
    ensures path !in env.faults.write ==> DeferredAttempted(Since(st, r.st), ds)
    ensures r.result.Ok? ==> DeferredWritten(env.bucketName, Since(st, r.st), ds)
    ensures r.result.Ok? ==> TreeWritten(env.bucketName, Since(st, r.st), DeferredPlaced(ds))
    decreases DeferredSize(ds), 3, 0
  {
    var write := Event(path, Write(data), path !in env.faults.write);
    var st1 := Record(st, write);
    assert Since(st, st1) == [write];
    WriteAfterParent(write);
    if path in env.faults.write then Step(Err(WriteFailure(path)), st1)
    else
      var st2 := st1.(docs := st1.docs[path := data]);
      var post := RunDeferred(env, st2, ds);
      var b := Since(st2, post.st);
      SinceChain(st, st2, post.st);
      assert Since(st, st2) == [write];
      WriteBeforeDeferred(st.docs, path, data, TargetParents(ds), b);
      WriteThenDeferred(env.bucketName, write, ds, b);
      post
  }

  /** A successful write followed by calls that need at most the document
      itself written before them. */
  lemma WriteBeforeDeferred(docs: map<DocPath, Data>, path: DocPath, data: Data, w: set<DocPath>, b: seq<Event>)
    requires w <= {path} && ParentsFirst(w, b) && CleanWrites(b) && NoDeletedChild(data)
    ensures var events := [Event(path, Write(data), true)] + b;
      && (AllOk(events) <==> AllOk(b))
      && Replay(docs, events) == Replay(docs[path := data], b)
      && ParentsFirst(DocParent(path), events)
      && CleanWrites(events)
  {
    var write := Event(path, Write(data), true);
    WriteAfterParent(write);
    assert AllOk([write]) && CleanWrites([write]);
    assert Replay(docs, [write]) == docs[path := data] by {
      assert [write][1..] == [];
    }
    AllOkAppend([write], b);
    ReplayAppend(docs, [write], b);
    ParentsFirstMonotone(w, DocParent(path) + {path}, b);
    ParentsFirstAppend(DocParent(path), [write], b);
    CleanAppend([write], b);
  }

  /** A write followed by the calls of the deferred imports reaches, and
      writes, what those calls do, and writes only where they may. */
  lemma WriteThenDeferred(bucket: string, write: Event, ds: seq<Resolve.Deferred>, b: seq<Event>)
    requires WritesIn(b, DeferredTree(ds)) && DeferredAttempted(b, ds)
    ensures WritesIn([write] + b, {write.doc} + DeferredTree(ds))
    ensures DeferredAttempted([write] + b, ds)
    ensures DeferredWritten(bucket, b, ds) ==> DeferredWritten(bucket, [write] + b, ds)
    ensures TreeWritten(bucket, b, DeferredPlaced(ds)) ==> TreeWritten(bucket, [write] + b, DeferredPlaced(ds))
  {
    WritesInAppend([write], b, {write.doc}, DeferredTree(ds));
    DeferredGrow(bucket, [write], b, ds);
    TreeWrittenGrow(bucket, [write], b, DeferredPlaced(ds));
  }

  /** A document's write needs only its parent written before it, and a
      successful one adds the document to those written. */
  lemma WriteAfterParent(e: Event)
    ensures ParentsFirst(DocParent(e.doc), [e])
    ensures Written(DocParent(e.doc), [e]) == if e.op.Write? && e.ok then DocParent(e.doc) + {e.doc} else DocParent(e.doc)
  {
    assert [e][1..] == [];
  }

  /** The deferred imports of one document, in the order they were
      found. */
  function RunDeferred(env: Env, st: State, ds: seq<Resolve.Deferred>): (r: Step<()>)
    requires DeferredImagesIn(ds, st.images.Keys) && Resolve.ValidCache(env, st)
    ensures r.st.images.Keys == st.images.Keys && Resolve.ValidCache(env, r.st)
    ensures st.trace <= r.st.trace
    ensures r.result.Ok? <==> AllOk(Since(st, r.st))
    ensures r.st.docs == Replay(st.docs, Since(st, r.st))
    ensures ParentsFirst(TargetParents(ds), Since(st, r.st))
    ensures CleanWrites(Since(st, r.st))
    ensures DeferredAttempted(Since(st, r.st), ds)
    ensures r.result.Ok? ==> DeferredWritten(env.bucketName, Since(st, r.st), ds)
    ensures WritesIn(Since(st, r.st), DeferredTree(ds))
    ensures r.result.Ok? ==> TreeWritten(env.bucketName, Since(st, r.st), DeferredPlaced(ds))
    ensures |ds| > 0 ==> var head := ImportDocuments(env, st, ds[0].target, ds[0].docs);
      head.st.trace <= r.st.trace && (head.result.Err? ==> r.result == head.result)
    decreases DeferredSize(ds), 2, |ds|
  {
    if |ds| == 0 then Step(Ok(()), st)
    else
      var head := ImportDocuments(env, st, ds[0].target, ds[0].docs);
      var rest := RunDeferred(env, head.st, ds[1..]);
      var a := Since(st, head.st);
      var b := Since(head.st, rest.st);
      SinceChain(st, head.st, rest.st);
      AllOkAppend(a, b);
      ReplayAppend(st.docs, a, b);
      ParentsFirstMonotone(ParentOf(ds[0].target), TargetParents(ds), a);
      ParentsFirstMonotone(TargetParents(ds[1..]), Written(TargetParents(ds), a), b);
      ParentsFirstAppend(TargetParents(ds), a, b);
      CleanAppend(a, b);
      DeferredCons(env.bucketName, a, b, ds);
      WritesInAppend(a, b, DocPaths(ds[0].target, ds[0].docs), DeferredTree(ds[1..]));
      TreeWrittenAppend(env.bucketName, a, b, DocsPlaced(ds[0].target, ds[0].docs), DeferredPlaced(ds[1..]));
      Step(Both(head.result, rest.result), rest.st)
  }

  predicate CollectionsImagesIn(cs: seq<CollectionSeed>, ids: set<ImageId>)
  {
    forall i :: 0 <= i < |cs| ==> DocsImagesIn(cs[i].docs, ids)
  }

  /** Every collection is a top-level one. */
  predicate TopLevel(cs: seq<CollectionSeed>)
  {
    forall i :: 0 <= i < |cs| ==> |cs[i].path| == 1
  }

  /** The calls of the first collection's import followed by those of the
      others'. */
  lemma CollectionsJoin(bucket: string, cs: seq<CollectionSeed>, a: seq<Event>, b: seq<Event>)
    requires |cs| > 0
    requires AllAttempted(a, cs[0].path, cs[0].docs) && CollectionsAttempted(b, cs[1..])
    requires AllOk(a) ==> AllWritten(bucket, a, cs[0].path, cs[0].docs)
    requires AllOk(b) ==> CollectionsWritten(bucket, b, cs[1..])
    requires AllOk(a) ==> TreeWritten(bucket, a, DocsPlaced(cs[0].path, cs[0].docs))
    requires AllOk(b) ==> TreeWritten(bucket, b, CollectionsPlaced(cs[1..]))
    requires WritesIn(a, DocPaths(cs[0].path, cs[0].docs)) && WritesIn(b, CollectionsTree(cs[1..]))
    requires CleanWrites(a) && CleanWrites(b)
    requires ParentsFirst(ParentOf(cs[0].path), a) && (TopLevel(cs[1..]) ==> ParentsFirst({}, b))
    ensures AllOk(a + b) <==> AllOk(a) && AllOk(b)
    ensures CollectionsAttempted(a + b, cs)
    ensures AllOk(a + b) ==> CollectionsWritten(bucket, a + b, cs)
    ensures AllOk(a + b) ==> TreeWritten(bucket, a + b, CollectionsPlaced(cs))
    ensures WritesIn(a + b, CollectionsTree(cs))
    ensures CleanWrites(a + b)
    ensures TopLevel(cs) ==> ParentsFirst({}, a + b)
  {
    AllOkAppend(a, b);
    CollectionsCons(bucket, a, b, cs);
    TreeWrittenAppend(bucket, a, b, DocsPlaced(cs[0].path, cs[0].docs), CollectionsPlaced(cs[1..]));
    WritesInAppend(a, b, DocPaths(cs[0].path, cs[0].docs), CollectionsTree(cs[1..]));
    CleanAppend(a, b);
    if TopLevel(cs) {
      assert |cs[0].path| == 1;
      assert TopLevel(cs[1..]);
      ParentsFirstJoin({}, a, b);
    }
  }

  /** `importCollections(admin, collections)`. */
  function ImportCollections(env: Env, st: State, cs: seq<CollectionSeed>): (r: Step<()>)
    requires CollectionsImagesIn(cs, st.images.Keys) && Resolve.ValidCache(env, st)
    ensures r.st.images.Keys == st.images.Keys && Resolve.ValidCache(env, r.st)
    ensures st.trace <= r.st.trace
    ensures r.result.Ok? <==> AllOk(Since(st, r.st))
    ensures r.st.docs == Replay(st.docs, Since(st, r.st))
    ensures TopLevel(cs) ==> ParentsFirst({}, Since(st, r.st))
    ensures CleanWrites(Since(st, r.st))
    ensures CollectionsAttempted(Since(st, r.st), cs)
    ensures r.result.Ok? ==> CollectionsWritten(env.bucketName, Since(st, r.st), cs)
    ensures WritesIn(Since(st, r.st), CollectionsTree(cs))
    ensures r.result.Ok? ==> TreeWritten(env.bucketName, Since(st, r.st), CollectionsPlaced(cs))
    ensures |cs| > 0 ==> var head := ImportDocuments(env, st, cs[0].path, cs[0].docs);
      head.st.trace <= r.st.trace && (head.result.Err? ==> r.result == head.result)
    decreases |cs|
  {
    if |cs| == 0 then Step(Ok(()), st)
    else
      var head := ImportDocuments(env, st, cs[0].path, cs[0].docs);
      var rest := ImportCollections(env, head.st, cs[1..]);
      var a := Since(st, head.st);
      var b := Since(head.st, rest.st);
      SinceChain(st, head.st, rest.st);
      ReplayAppend(st.docs, a, b);
      CollectionsJoin(env.bucketName, cs, a, b);
      Step(Both(head.result, rest.result), rest.st)
  }

  /** The documents `events` writes, successfully or not. */
  function WrittenPaths(events: seq<Event>): set<DocPath>
  {
    set i | 0 <= i < |events| && events[i].op.Write? :: events[i].doc
  }

  /** A successful import writes exactly the documents of its collections
      and of their subcollections, recursively, each from its own seed. */
  lemma ImportedExactlyTheTree(env: Env, st: State, cs: seq<CollectionSeed>)
    requires CollectionsImagesIn(cs, st.images.Keys) && Resolve.ValidCache(env, st)
    ensures var r := ImportCollections(env, st, cs);
      r.result.Ok? ==> WrittenPaths(Since(st, r.st)) == CollectionsTree(cs)
  {
    var r := ImportCollections(env, st, cs);
    var events := Since(st, r.st);
    if r.result.Ok? {
      CollectionsTreePaths(cs);
      forall q | q in CollectionsTree(cs)
        ensures q in WrittenPaths(events)
      {
        var v :| Placed(q, v) in CollectionsPlaced(cs);
        assert WroteConforming(env.bucketName, events, q, v);
        var data :| Resolve.Conforms(env.bucketName, v, data) && Event(q, Write(data), true) in events;
        var i :| 0 <= i < |events| && events[i] == Event(q, Write(data), true);
      }
    }
  }
}

=== FILE: legacy.dfy ===
/** The older JavaScript build of the engine. Its resolution and import are
    the same algorithm as the TypeScript one; it differs in two places: a
    document refuses a missing id when it is built, and a collection is
    found either from its name (a root collection) or from a reference
    stored when a subcollection placeholder was resolved. */
module Legacy {
  import opened Results
  import opened Values
  import opened World
  import Resolve
  import Import

  /** `new Document(id, data)`; an id that is `null` or `undefined` is
      `None`. */
  function NewDocument(id: Option<string>, data: Seed): (r: Result<DocSeed>)
    ensures r.Ok? <==> id.Some?
    ensures id.None? ==> r == Err(NullId)
    ensures r.Ok? ==> r.value.id == id.value && r.value.data == data
  {
    match id
    case None => Err(NullId)
    case Some(i) => Ok(DocSeed(i, data))
  }

  /** `new Collection(name, docs, collection)`: a root collection has a name
      and no stored reference; a subcollection gets the reference built
      while resolving its placeholder, and the placeholder's `name`, which
      is always `undefined`. */
  datatype JsCollection = JsCollection(name: Option<string>, docs: seq<DocSeed>, stored: Option<seq<string>>)

  /** `collection(name, docs)`: found by its name, at the top level. */
  function RootCollection(name: string, docs: seq<DocSeed>): (c: JsCollection)
    ensures c.docs == docs && GetCollection(c) == Ok([name])
  {
    JsCollection(Some(name), docs, None)
  }

  /** The collection the resolver builds for a subcollection placeholder
      under `key` in the document at `parent`. */
  function SubcollectionOf(parent: DocPath, key: string, docs: seq<DocSeed>): (c: JsCollection)
    ensures c.docs == docs && c.name.None? && GetCollection(c) == Ok(parent + [key])
  {
    JsCollection(None, docs, Some(parent + [key]))
  }

  /** `getCollection`: the stored reference if there is one, otherwise the
      root collection named `name`, which fails without a name. */
  function GetCollection(c: JsCollection): (r: Result<seq<string>>)
    ensures c.stored.Some? ==> r == Ok(c.stored.value)
    ensures c.stored.None? ==> (r.Ok? <==> c.name.Some?)
    ensures c.stored.None? && c.name.Some? ==> r == Ok([c.name.value])
  {
    if c.stored.Some? then Ok(c.stored.value)
    else if c.name.Some? then Ok([c.name.value])
    else Err(InvalidCollectionName)
  }

  /** `importDocuments` of a legacy collection: a collection without a
      path fails before any call; otherwise it succeeds iff every call
      succeeded, the database is the replay of the successful writes, no
      sentinel is written, and every call for a document inside a
      subcollection follows its parent's write, unless that parent is the
      document the collection itself sits in. Every document of the
      collection is reached; a success writes each of them and every
      document of their subcollections, at every depth; and nothing is
      written outside the documents and their subcollections. */
  function ImportLegacy(env: Env, st: State, c: JsCollection): (r: Step<()>)
    requires DocsImagesIn(c.docs, st.images.Keys) && Resolve.ValidCache(env, st)
    ensures GetCollection(c).Err? ==> r == Step(Err(InvalidCollectionName), st)
    ensures st.trace <= r.st.trace && r.st.images.Keys == st.images.Keys
    ensures GetCollection(c).Ok? ==> (r.result.Ok? <==> AllOk(Since(st, r.st)))
    ensures r.st.docs == Import.Replay(st.docs, Since(st, r.st))
    ensures Import.CleanWrites(Since(st, r.st))
    ensures GetCollection(c).Ok? ==> Import.ParentsFirst(Import.ParentOf(GetCollection(c).value), Since(st, r.st))
    ensures GetCollection(c).Ok? ==> Import.AllAttempted(Since(st, r.st), GetCollection(c).value, c.docs)
    ensures r.result.Ok? ==> GetCollection(c).Ok? && Import.AllWritten(env.bucketName, Since(st, r.st), GetCollection(c).value, c.docs)
    ensures r.result.Ok? ==> GetCollection(c).Ok? && Import.TreeWritten(env.bucketName, Since(st, r.st), Import.DocsPlaced(GetCollection(c).value, c.docs))
    ensures GetCollection(c).Ok? ==> Import.WritesIn(Since(st, r.st), Import.DocPaths(GetCollection(c).value, c.docs))
  {
    match GetCollection(c)
    case Err(e) => Step(Err(e), st)
    case Ok(path) => Import.ImportDocuments(env, st, path, c.docs)
  }

  /** A document built with an id is written under that id by a
      successful legacy import of a collection holding it, and a failing
      import still reaches it. */
  lemma NewDocumentLands(env: Env, st: State, c: JsCollection, k: nat, id: string, data: Seed)
    requires DocsImagesIn(c.docs, st.images.Keys) && Resolve.ValidCache(env, st)
    requires k < |c.docs| && NewDocument(Some(id), data) == Ok(c.docs[k])
    ensures var r := ImportLegacy(env, st, c);
      GetCollection(c).Ok? ==> Import.Touched(Since(st, r.st), GetCollection(c).value + [id])
    ensures var r := ImportLegacy(env, st, c);
      r.result.Ok? ==> Import.WroteConforming(env.bucketName, Since(st, r.st), GetCollection(c).value + [id], data)
  {
    var r := ImportLegacy(env, st, c);
    assert c.docs[k] == DocSeed(id, data);
    if GetCollection(c).Ok? {
      assert Import.Touched(Since(st, r.st), GetCollection(c).value + [c.docs[k].id]);
    }
    if r.result.Ok? {
      assert Import.WroteConforming(env.bucketName, Since(st, r.st), GetCollection(c).value + [c.docs[k].id], c.docs[k].data);
    }
  }

  /** A root collection is imported exactly as the TypeScript engine
      imports `collection(name, docs)`. */
  lemma RootAgrees(env: Env, st: State, name: string, docs: seq<DocSeed>)
    requires DocsImagesIn(docs, st.images.Keys) && Resolve.ValidCache(env, st)
    ensures ImportLegacy(env, st, RootCollection(name, docs))
         == Import.ImportDocuments(env, st, Import.Collection(name, docs).path, docs)
  {
  }

  /** A subcollection is found through its stored reference, never through
      its name, and lands where the TypeScript engine defers it. */
  lemma SubcollectionAgrees(ctx: Resolve.Ctx, key: string, docs: seq<DocSeed>)
    ensures GetCollection(SubcollectionOf(Resolve.DocPathOf(ctx), key, docs))
         == Ok(Resolve.DeferAll(ctx, [Field(key, docs)])[0].target)
  {
  }
}

=== FILE: resolve.dfy ===
/** `filterObject`: the recursive rewrite of one document's seed data into
    Firestore-native data. Each value is dispatched on its kind; an array or
    object is rebuilt from its resolved children, leaving out every child
    that resolved to the deletion sentinel; a subcollection resolves to the
    sentinel and adds a deferred import of its documents below the current
    document, named after the field key it sits under. */
module Resolve {
  import opened Results
  import opened Values
  import opened World
  import Strings
  import Storage

  /** The document being resolved: the path of its collection and its id. */
  datatype Ctx = Ctx(collection: seq<string>, docId: string)

  function DocPathOf(ctx: Ctx): DocPath
  {
    ctx.collection + [ctx.docId]
  }

  /** A subcollection import to run once the document has been written:
      the collection to write to and its documents. */
  datatype Deferred = Deferred(target: seq<string>, docs: seq<DocSeed>)

  /** An outcome, the state it leaves, and the imports it deferred. */
  datatype Resolution<+T> = Resolution(result: Result<T>, st: State, deferred: seq<Deferred>)

  /** Every image the state has cached holds a download URL of the bucket,
      as `uploadFile` builds them. */
  predicate ValidCache(env: Env, st: State)
  {
    forall id :: id in st.images && st.images[id].downloadURL.Some? ==>
      Storage.UrlPrefix + env.bucketName + "/o/" <= st.images[id].downloadURL.value
  }

  /** A seed child its parent drops: a subcollection, or the sentinel
      string itself. */
  predicate Dropped(v: Seed)
  {
    v.Subcollection? || v == Plain(Str(DeleteMarker))
  }

  // ---------------------------------------------------------------------
  // What the resolved data looks like, independently of the state.

  /** `d` is a resolution of `v` for the bucket `bucket`: primitives,
      references, geo points and timestamps carry over, a Date becomes a
      Timestamp, an image becomes a download URL of the bucket, a
      subcollection becomes the sentinel, and a composite keeps the shape of
      `v` with its dropped children left out. */
  predicate Conforms(bucket: string, v: Seed, d: Data)
  {
    match v
    case Plain(p) => d == PrimitiveValue(p)
    case Date(t) => d == TimestampValue(t)
    case Stamp(t) => d == TimestampValue(t)
    case Image(_) => d.PrimitiveValue? && d.p.Str? && Storage.UrlPrefix + bucket + "/o/" <= d.p.s
    case Ref(c, doc) => d == ReferenceValue(c, doc)
    case Geo(lat, lon) => d == GeoPointValue(lat, lon)
    case Subcollection(_) => d == Deleted
    case Array(items) => d.ArrayValue? && ItemsConform(bucket, items, d.items)
    case Object(fields) => d.MapValue? && FieldsConform(bucket, fields, d.fields)
  }

  /** An element keeps its index: a hole stays a hole, a dropped element
      leaves a hole, any other element is resolved in place. */
  predicate SlotConforms(bucket: string, s: Slot<Seed>, out: Slot<Data>)
  {
    match s
    case Hole => out == Hole
    case Item(v) => if Dropped(v) then out == Hole else out.Item? && Conforms(bucket, v, out.value)
  }

  predicate ItemsConform(bucket: string, items: seq<Slot<Seed>>, outs: seq<Slot<Data>>)
  {
    && |items| == |outs|
    && (|items| == 0 || (SlotConforms(bucket, items[0], outs[0]) && ItemsConform(bucket, items[1..], outs[1..])))
  }

  predicate FieldConforms(bucket: string, f: Field<Seed>, out: Field<Data>)
  {
    out.key == f.key && Conforms(bucket, f.value, out.value)
  }

  /** The entries of `outs` are those of `fields` that are not dropped, in
      the same order and under the same keys, each resolved. */
  predicate FieldsConform(bucket: string, fields: seq<Field<Seed>>, outs: seq<Field<Data>>)
  {
    if |fields| == 0 then outs == []
    else if Dropped(fields[0].value) then FieldsConform(bucket, fields[1..], outs)
    else |outs| > 0 && FieldConforms(bucket, fields[0], outs[0]) && FieldsConform(bucket, fields[1..], outs[1..])
  }

  // ---------------------------------------------------------------------
  // Which subcollections a tree defers, independently of the state.

  /** The subcollection placeholders of `v`, each with the key of the field
      or the index of the element it is the value of; one at the root has no
      key and defers nothing. */
  function Subcollections(key: Option<string>, v: Seed): seq<Field<seq<DocSeed>>>
    decreases v
  {
    match v
    case Subcollection(docs) => if key.Some? then [Field(key.value, docs)] else []
    case Array(items) => ItemsSubcollections(items, 0)
    case Object(fields) => FieldsSubcollections(fields)
    case _ => []
  }

  function SlotSubcollections(s: Slot<Seed>, index: nat): seq<Field<seq<DocSeed>>>
    decreases s
  {
    match s
    case Hole => []
    case Item(v) => Subcollections(Some(Strings.Decimal(index)), v)
  }

  function ItemsSubcollections(items: seq<Slot<Seed>>, index: nat): seq<Field<seq<DocSeed>>>
    decreases items
  {
    if |items| == 0 then []
    else SlotSubcollections(items[0], index) + ItemsSubcollections(items[1..], index + 1)
  }

  function FieldSubcollections(f: Field<Seed>): seq<Field<seq<DocSeed>>>
    decreases f
  {
    Subcollections(Some(f.key), f.value)
  }

  function FieldsSubcollections(fields: seq<Field<Seed>>): seq<Field<seq<DocSeed>>>
  {
    if |fields| == 0 then [] else FieldSubcollections(fields[0]) + FieldsSubcollections(fields[1..])
  }

  /** The imports deferred for subcollections found in the document of
      `ctx`: each goes to the collection named by its key below that
      document. */
  function DeferAll(ctx: Ctx, subs: seq<Field<seq<DocSeed>>>): (ds: seq<Deferred>)
    ensures |ds| == |subs|
    ensures forall i :: 0 <= i < |subs| ==> ds[i] == Deferred(DocPathOf(ctx) + [subs[i].key], subs[i].value)
  {
    if |subs| == 0 then []
    else [Deferred(DocPathOf(ctx) + [subs[0].key], subs[0].value)] + DeferAll(ctx, subs[1..])
  }

  lemma DeferAllAppend(ctx: Ctx, a: seq<Field<seq<DocSeed>>>, b: seq<Field<seq<DocSeed>>>)
    ensures DeferAll(ctx, a + b) == DeferAll(ctx, a) + DeferAll(ctx, b)
  {
  }

  // ---------------------------------------------------------------------
  // The resolution itself.

  function ImageValue(url: Result<string>): Result<Data>
  {
    match url
    case Ok(u) => Ok(PrimitiveValue(Str(u)))
    case Err(e) => Err(e)
  }

  /** An image placeholder becomes the download URL of its instance,
      uploading the file the first time. */
  function ResolveImage(env: Env, st: State, ctx: Ctx, id: ImageId): (r: Resolution<Data>)
    requires id in st.images && ValidCache(env, st)
    ensures r.st.images.Keys == st.images.Keys && ValidCache(env, r.st)
    ensures r.st.docs == st.docs
    ensures st.trace <= r.st.trace && EventsFor(Since(st, r.st), DocPathOf(ctx))
    ensures r.result.Ok? <==> AllOk(Since(st, r.st))
    ensures r.result.Ok? ==> Conforms(env.bucketName, Image(id), r.result.value)
    ensures r.deferred == []
    ensures st.images[id].downloadURL.Some? ==>
      r.result == Ok(PrimitiveValue(Str(st.images[id].downloadURL.value))) && r.st == st
    ensures r.result.Ok? ==>
      r.st.images[id].downloadURL.Some? && r.result.value == PrimitiveValue(Str(r.st.images[id].downloadURL.value))
    ensures st.images[id].downloadURL.None? && r.result.Ok? ==>
      var dest := Storage.StripLeadingSlash(Strings.ReplaceFirstJs(st.images[id].remotePath, Strings.IdPlaceholder, ctx.docId));
      Storage.IsDownloadURLOf(env, r.st.blobs, dest, r.st.images[id].downloadURL.value)
  {
    var u := Storage.ImageUpload(env, st, DocPathOf(ctx), id, ctx.docId);
    if st.images[id].downloadURL.None? then
      Storage.ImageUploadTarget(env, st, DocPathOf(ctx), id, ctx.docId);
      Resolution(ImageValue(u.result), u.st, [])
    else
      Resolution(ImageValue(u.result), u.st, [])
  }

  /** A subcollection placeholder under `key` becomes the sentinel and
      defers the import of its documents into the collection `key` below
      the current document. At the root of a document there is no key, and
      naming the collection fails. */
  function ResolveSubcollection(st: State, ctx: Ctx, key: Option<string>, docs: seq<DocSeed>): (r: Resolution<Data>)
    ensures r.st.images == st.images && r.st.docs == st.docs && r.st.blobs == st.blobs
    ensures r.st.trace == st.trace + [Event(DocPathOf(ctx), CollectionRef(key), key.Some?)]
    ensures key.None? ==> r.result == Err(InvalidCollectionName) && r.deferred == []
    ensures key.Some? ==> r.result == Ok(Deleted) && r.deferred == [Deferred(DocPathOf(ctx) + [key.value], docs)]
  {
    if key.None? then
      var f := Fail(st, st, DocPathOf(ctx), CollectionRef(key), InvalidCollectionName);
      Resolution(f.result, f.st, [])
    else
      Resolution(Ok(Deleted), Record(st, Event(DocPathOf(ctx), CollectionRef(key), true)),
                 [Deferred(DocPathOf(ctx) + [key.value], docs)])
  }

  /** `filterObject(context, key, v)`. */
  function Resolve(env: Env, st: State, ctx: Ctx, key: Option<string>, v: Seed): (r: Resolution<Data>)
    requires ImagesIn(v, st.images.Keys) && ValidCache(env, st)
    ensures r.st.images.Keys == st.images.Keys && ValidCache(env, r.st)
    ensures r.st.docs == st.docs
    ensures st.trace <= r.st.trace && EventsFor(Since(st, r.st), DocPathOf(ctx))
    ensures r.result.Ok? <==> AllOk(Since(st, r.st))
    ensures r.result.Ok? ==> Conforms(env.bucketName, v, r.result.value)
    ensures r.deferred == DeferAll(ctx, Subcollections(key, v))
    decreases v
  {
    match v
    case Plain(p) => Resolution(Ok(PrimitiveValue(p)), st, [])
    case Date(t) => Resolution(Ok(TimestampValue(t)), st, [])
    case Stamp(t) => Resolution(Ok(TimestampValue(t)), st, [])
    case Image(id) => ResolveImage(env, st, ctx, id)
    case Ref(c, d) => Resolution(Ok(ReferenceValue(c, d)), st, [])
    case Geo(lat, lon) => Resolution(Ok(GeoPointValue(lat, lon)), st, [])
    case Subcollection(docs) => ResolveSubcollection(st, ctx, key, docs)
    case Array(items) =>
      var r := ResolveItems(env, st, ctx, items, 0);
      Resolution(if r.result.Ok? then Ok(ArrayValue(r.result.value)) else Err(r.result.error), r.st, r.deferred)
    case Object(fields) =>
      var r := ResolveFields(env, st, ctx, fields);
      Resolution(if r.result.Ok? then Ok(MapValue(r.result.value)) else Err(r.result.error), r.st, r.deferred)
  }

  /** One element of an array, under its decimal index as key; an element
      that resolves to the sentinel leaves a hole. */
  function ResolveSlot(env: Env, st: State, ctx: Ctx, s: Slot<Seed>, index: nat): (r: Resolution<Slot<Data>>)
    requires SlotImagesIn(s, st.images.Keys) && ValidCache(env, st)
    ensures r.st.images.Keys == st.images.Keys && ValidCache(env, r.st)
    ensures r.st.docs == st.docs
    ensures st.trace <= r.st.trace && EventsFor(Since(st, r.st), DocPathOf(ctx))
    ensures r.result.Ok? <==> AllOk(Since(st, r.st))
    ensures r.result.Ok? ==> SlotConforms(env.bucketName, s, r.result.value)
    ensures r.deferred == DeferAll(ctx, SlotSubcollections(s, index))
    decreases s
  {
    match s
    case Hole => Resolution(Ok(Hole), st, [])
    case Item(v) =>
      var r := Resolve(env, st, ctx, Some(Strings.Decimal(index)), v);
      assert r.result.Ok? && !Dropped(v) ==> r.result.value != Deleted by {
        if r.result.Ok? && !Dropped(v) {
          NotDroppedNotDeleted(env.bucketName, v, r.result.value);
        }
      }
      var out := if r.result.Ok? then Ok(if r.result.value == Deleted then Hole else Item(r.result.value)) else Err(r.result.error);
      Resolution(out, r.st, r.deferred)
  }

  /** The elements from `index` on, left to right; every element is
      resolved even after one has failed, and the first failure is the
      outcome. */
  function ResolveItems(env: Env, st: State, ctx: Ctx, items: seq<Slot<Seed>>, index: nat): (r: Resolution<seq<Slot<Data>>>)
    requires ItemsImagesIn(items, st.images.Keys) && ValidCache(env, st)
    ensures r.st.images.Keys == st.images.Keys && ValidCache(env, r.st)
    ensures r.st.docs == st.docs
    ensures st.trace <= r.st.trace && EventsFor(Since(st, r.st), DocPathOf(ctx))
    ensures r.result.Ok? <==> AllOk(Since(st, r.st))
    ensures r.result.Ok? ==> ItemsConform(env.bucketName, items, r.result.value)
    ensures r.deferred == DeferAll(ctx, ItemsSubcollections(items, index))
    decreases items
  {
    if |items| == 0 then Resolution(Ok([]), st, [])
    else
      var head := ResolveSlot(env, st, ctx, items[0], index);
      var rest := ResolveItems(env, head.st, ctx, items[1..], index + 1);
      SinceChain(st, head.st, rest.st);
      AllOkAppend(Since(st, head.st), Since(head.st, rest.st));
      DeferAllAppend(ctx, SlotSubcollections(items[0], index), ItemsSubcollections(items[1..], index + 1));
      var out :=
        if head.result.Err? then Err(head.result.error)
        else if rest.result.Err? then Err(rest.result.error)
        else Ok([head.result.value] + rest.result.value);
      assert out.Ok? ==> out.value[1..] == rest.result.value;
      Resolution(out, rest.st, head.deferred + rest.deferred)
  }

  /** One entry of an object, kept under its key unless it resolves to the
      sentinel. */
  function ResolveField(env: Env, st: State, ctx: Ctx, f: Field<Seed>): (r: Resolution<seq<Field<Data>>>)
    requires FieldImagesIn(f, st.images.Keys) && ValidCache(env, st)
    ensures r.st.images.Keys == st.images.Keys && ValidCache(env, r.st)
    ensures r.st.docs == st.docs
    ensures st.trace <= r.st.trace && EventsFor(Since(st, r.st), DocPathOf(ctx))
    ensures r.result.Ok? <==> AllOk(Since(st, r.st))
    ensures r.result.Ok? && Dropped(f.value) ==> r.result.value == []
    ensures r.result.Ok? && !Dropped(f.value) ==>
      |r.result.value| == 1 && FieldConforms(env.bucketName, f, r.result.value[0])
    ensures r.deferred == DeferAll(ctx, FieldSubcollections(f))
    decreases f
  {
    var r := Resolve(env, st, ctx, Some(f.key), f.value);
    assert r.result.Ok? && !Dropped(f.value) ==> r.result.value != Deleted by {
      if r.result.Ok? && !Dropped(f.value) {
        NotDroppedNotDeleted(env.bucketName, f.value, r.result.value);
      }
    }
    var out := if r.result.Ok? then Ok(if r.result.value == Deleted then [] else [Field(f.key, r.result.value)]) else Err(r.result.error);
    Resolution(out, r.st, r.deferred)
  }

  /** The entries of an object, left to right, all of them resolved; the
      first failure is the outcome. */
  function ResolveFields(env: Env, st: State, ctx: Ctx, fields: seq<Field<Seed>>): (r: Resolution<seq<Field<Data>>>)
    requires FieldsImagesIn(fields, st.images.Keys) && ValidCache(env, st)
    ensures r.st.images.Keys == st.images.Keys && ValidCache(env, r.st)
    ensures r.st.docs == st.docs
    ensures st.trace <= r.st.trace && EventsFor(Since(st, r.st), DocPathOf(ctx))
    ensures r.result.Ok? <==> AllOk(Since(st, r.st))
    ensures r.result.Ok? ==> FieldsConform(env.bucketName, fields, r.result.value)
    ensures r.deferred == DeferAll(ctx, FieldsSubcollections(fields))
    decreases fields
  {
    if |fields| == 0 then Resolution(Ok([]), st, [])
    else
      var head := ResolveField(env, st, ctx, fields[0]);
      var rest := ResolveFields(env, head.st, ctx, fields[1..]);
      SinceChain(st, head.st, rest.st);
      AllOkAppend(Since(st, head.st), Since(head.st, rest.st));
      DeferAllAppend(ctx, FieldSubcollections(fields[0]), FieldsSubcollections(fields[1..]));
      var out :=
        if head.result.Err? then Err(head.result.error)
        else if rest.result.Err? then Err(rest.result.error)
        else Ok(head.result.value + rest.result.value);
      assert out.Ok? && |head.result.value| == 1 ==> out.value[0] == head.result.value[0] && out.value[1..] == rest.result.value;
      assert out.Ok? && |head.result.value| == 0 ==> out.value == rest.result.value;
      Resolution(out, rest.st, head.deferred + rest.deferred)
  }

  /** The elements of an array are resolved one after the other: the rest
      is resolved from the state the first element left, whatever its
      outcome, and a failure of the first element is the outcome. */
  lemma ResolveItemsInOrder(env: Env, st: State, ctx: Ctx, items: seq<Slot<Seed>>, index: nat)
    requires ItemsImagesIn(items, st.images.Keys) && ValidCache(env, st) && |items| > 0
    ensures var r := ResolveItems(env, st, ctx, items, index);
      var head := ResolveSlot(env, st, ctx, items[0], index);
      && head.st.trace <= r.st.trace
      && (head.result.Err? ==> r.result == Err(head.result.error))
      && r.st == ResolveItems(env, head.st, ctx, items[1..], index + 1).st
  {
  }

  /** The same for the entries of an object. */
  lemma ResolveFieldsInOrder(env: Env, st: State, ctx: Ctx, fields: seq<Field<Seed>>)
    requires FieldsImagesIn(fields, st.images.Keys) && ValidCache(env, st) && |fields| > 0
    ensures var r := ResolveFields(env, st, ctx, fields);
      var head := ResolveField(env, st, ctx, fields[0]);
      && head.st.trace <= r.st.trace
      && (head.result.Err? ==> r.result == Err(head.result.error))
      && r.st == ResolveFields(env, head.st, ctx, fields[1..]).st
  {
  }

  // ---------------------------------------------------------------------
  // Properties of resolved data.

  /** A child that its parent does not drop never resolves to the
      sentinel: a download URL starts with `https://`. */
  lemma NotDroppedNotDeleted(bucket: string, v: Seed, d: Data)
    requires Conforms(bucket, v, d) && !Dropped(v)
    ensures d != Deleted
  {
    if v.Image? {
      assert d.p.s[0] == Storage.UrlPrefix[0] == 'h';
    }
  }

  /** Resolved data never holds the sentinel below its root: every
      composite leaves out the children that resolved to it. */
  lemma {:induction false} ConformsNoDeleted(bucket: string, v: Seed, d: Data)
    requires Conforms(bucket, v, d)
    ensures NoDeletedChild(d)
    decreases v, 1
  {
    match v
    case Array(items) => ItemsConformNoDeleted(bucket, items, d.items);
    case Object(fields) => FieldsConformNoDeleted(bucket, fields, d.fields);
    case _ =>
  }

  lemma {:induction false} SlotConformsNoDeleted(bucket: string, s: Slot<Seed>, out: Slot<Data>)
    requires SlotConforms(bucket, s, out)
    ensures NoDeletedSlot(out)
    decreases s, 1
  {
    if s.Item? && !Dropped(s.value) {
      NotDroppedNotDeleted(bucket, s.value, out.value);
      ConformsNoDeleted(bucket, s.value, out.value);
    }
  }

  lemma {:induction false} ItemsConformNoDeleted(bucket: string, items: seq<Slot<Seed>>, outs: seq<Slot<Data>>)
    requires ItemsConform(bucket, items, outs)
    ensures NoDeletedItem(outs)
    decreases items, 0
  {
    if |items| > 0 {
      SlotConformsNoDeleted(bucket, items[0], outs[0]);
      ItemsConformNoDeleted(bucket, items[1..], outs[1..]);
    }
  }

  lemma {:induction false} FieldsConformNoDeleted(bucket: string, fields: seq<Field<Seed>>, outs: seq<Field<Data>>)
    requires FieldsConform(bucket, fields, outs)
    ensures NoDeletedField(outs)
    decreases fields, 0
  {
    if |fields| > 0 {
      if !Dropped(fields[0].value) {
        NotDroppedNotDeleted(bucket, fields[0].value, outs[0].value);
        ConformsNoDeleted(bucket, fields[0].value, outs[0].value);
        FieldsConformNoDeleted(bucket, fields[1..], outs[1..]);
      } else {
        FieldsConformNoDeleted(bucket, fields[1..], outs);
      }
    }
  }

  /** A caller's own string equal to the sentinel is dropped like a
      subcollection: an object holding only such an entry resolves to the
      empty map. */
  lemma SentinelStringDropped(env: Env, st: State, ctx: Ctx, key: Option<string>, k: string)
    requires ValidCache(env, st)
    ensures ImagesIn(Object([Field(k, Plain(Str(DeleteMarker)))]), st.images.Keys)
    ensures var r := Resolve(env, st, ctx, key, Object([Field(k, Plain(Str(DeleteMarker)))]));
      r.result == Ok(MapValue([])) && r.st == st && r.deferred == []
  {
    var fields := [Field(k, Plain(Str(DeleteMarker)))];
    assert FieldsImagesIn(fields[1..], st.images.Keys);
    assert Resolve(env, st, ctx, Some(k), Plain(Str(DeleteMarker))).result == Ok(Deleted);
    var head := ResolveField(env, st, ctx, fields[0]);
    assert head.result == Ok([]) && head.st == st;
    assert ResolveFields(env, head.st, ctx, fields[1..]).result == Ok([]);
  }

  /** A subcollection is named after the innermost key it sits under,
      however deep in the document it is. */
  lemma InnermostKey(outer: Option<string>, a: string, k: string, docs: seq<DocSeed>)
    ensures Subcollections(outer, Object([Field(a, Object([Field(k, Subcollection(docs))]))])) == [Field(k, docs)]
  {
    var inner := [Field(k, Subcollection(docs))];
    assert FieldSubcollections(inner[0]) == [Field(k, docs)];
    assert FieldsSubcollections(inner[1..]) == [];
    assert FieldsSubcollections(inner) == [Field(k, docs)];
    var outerFields := [Field(a, Object(inner))];
    assert FieldSubcollections(outerFields[0]) == [Field(k, docs)];
    assert FieldsSubcollections(outerFields[1..]) == [];
    assert FieldsSubcollections(outerFields) == [Field(k, docs)];
  }

  /** A subcollection that is an array element is named after its index. */
  lemma IndexKey(outer: Option<string>, docs: seq<DocSeed>)
    ensures Subcollections(outer, Array([Hole, Item(Subcollection(docs))])) == [Field("1", docs)]
  {
    assert Strings.DigitChar(1) == "0123456789"[1] == '1';
    assert Strings.Decimal(1) == [Strings.DigitChar(1)] == "1";
    var items: seq<Slot<Seed>> := [Hole, Item(Subcollection(docs))];
    assert SlotSubcollections(items[1], 1) == [Field("1", docs)];
    assert ItemsSubcollections(items[2..], 2) == [];
    assert ItemsSubcollections(items[1..], 1) == [Field("1", docs)];
    assert SlotSubcollections(items[0], 0) == [];
    assert ItemsSubcollections(items, 0) == [Field("1", docs)];
  }

  // ---------------------------------------------------------------------
  // What the deferred imports hold: strictly smaller seed data than the
  // document they were found in, and only image instances it names.

  function SubsSize(subs: seq<Field<seq<DocSeed>>>): nat
  {
    if |subs| == 0 then 0 else DocsSize(subs[0].value) + SubsSize(subs[1..])
  }

  predicate SubsImagesIn(subs: seq<Field<seq<DocSeed>>>, ids: set<ImageId>)
  {
    forall i :: 0 <= i < |subs| ==> DocsImagesIn(subs[i].value, ids)
  }

  lemma {:induction false} SubsAppend(a: seq<Field<seq<DocSeed>>>, b: seq<Field<seq<DocSeed>>>)
    ensures SubsSize(a + b) == SubsSize(a) + SubsSize(b)
  {
    if |a| == 0 {
      assert a + b == b;
    } else {
      assert (a + b)[0] == a[0];
      assert (a + b)[1..] == a[1..] + b;
      SubsAppend(a[1..], b);
    }
  }

  /** The documents of the subcollections of `v` are smaller than `v`, and
      name only image instances `v` names. */
  lemma {:induction false} SubcollectionsBounded(key: Option<string>, v: Seed, ids: set<ImageId>)
    ensures SubsSize(Subcollections(key, v)) < Size(v)
    ensures ImagesIn(v, ids) ==> SubsImagesIn(Subcollections(key, v), ids)
    decreases v, 1
  {
    match v
    case Subcollection(docs) =>
      if key.Some? {
        assert SubsSize([Field(key.value, docs)]) == DocsSize(docs) + SubsSize([]);
      }
    case Array(items) => ItemsSubcollectionsBounded(items, 0, ids);
    case Object(fields) => FieldsSubcollectionsBounded(fields, ids);
    case _ =>
  }

  lemma {:induction false} SlotSubcollectionsBounded(s: Slot<Seed>, index: nat, ids: set<ImageId>)
    ensures SubsSize(SlotSubcollections(s, index)) <= SlotSize(s)
    ensures SlotImagesIn(s, ids) ==> SubsImagesIn(SlotSubcollections(s, index), ids)
    decreases s, 1
  {
    if s.Item? {
      SubcollectionsBounded(Some(Strings.Decimal(index)), s.value, ids);
    }
  }

  lemma {:induction false} ItemsSubcollectionsBounded(items: seq<Slot<Seed>>, index: nat, ids: set<ImageId>)
    ensures SubsSize(ItemsSubcollections(items, index)) <= ItemsSize(items)
    ensures ItemsImagesIn(items, ids) ==> SubsImagesIn(ItemsSubcollections(items, index), ids)
    decreases items, 0
  {
    if |items| > 0 {
      var head := SlotSubcollections(items[0], index);
      var rest := ItemsSubcollections(items[1..], index + 1);
      SlotSubcollectionsBounded(items[0], index, ids);
      ItemsSubcollectionsBounded(items[1..], index + 1, ids);
      SubsAppend(head, rest);
      if ItemsImagesIn(items, ids) {
        forall i | 0 <= i < |head + rest|
          ensures DocsImagesIn((head + rest)[i].value, ids)
        {
          if i < |head| {
            assert (head + rest)[i] == head[i];
          } else {
            assert (head + rest)[i] == rest[i - |head|];
          }
        }
      }
    }
  }

  lemma {:induction false} FieldSubcollectionsBounded(f: Field<Seed>, ids: set<ImageId>)
    ensures SubsSize(FieldSubcollections(f)) <= FieldSize(f)
    ensures FieldImagesIn(f, ids) ==> SubsImagesIn(FieldSubcollections(f), ids)
    decreases f, 1
  {
    SubcollectionsBounded(Some(f.key), f.value, ids);
  }

  lemma {:induction false} FieldsSubcollectionsBounded(fields: seq<Field<Seed>>, ids: set<ImageId>)
    ensures SubsSize(FieldsSubcollections(fields)) <= FieldsSize(fields)
    ensures FieldsImagesIn(fields, ids) ==> SubsImagesIn(FieldsSubcollections(fields), ids)
    decreases fields, 0
  {
    if |fields| > 0 {
      var head := FieldSubcollections(fields[0]);
      var rest := FieldsSubcollections(fields[1..]);
      FieldSubcollectionsBounded(fields[0], ids);
      FieldsSubcollectionsBounded(fields[1..], ids);
      SubsAppend(head, rest);
      if FieldsImagesIn(fields, ids) {
        forall i | 0 <= i < |head + rest|
          ensures DocsImagesIn((head + rest)[i].value, ids)
        {
          if i < |head| {
            assert (head + rest)[i] == head[i];
          } else {
            assert (head + rest)[i] == rest[i - |head|];
          }
        }
      }
    }
  }
}

=== FILE: results.dfy ===
/** Failure kinds of the seed engine and the `Result`
    used by every fallible operation of the model. */
module Results {

  /** The remote calls that can fail on the blob store. */
  datatype BlobCall = ExistsCall | UploadCall | GetMetadataCall | SetMetadataCall

  /** Every way an operation of the engine can fail. */
  datatype Error =
    /** `docRef` was given a single path that does not split into two parts. */
    | UnsupportedFormat(path: string)
    /** index.js refuses to build a document without an id. */
    | NullId
    /** The local file of an image is absent. */
    | FileNotFound(file: string)
    /** A subcollection placeholder was met where no field key exists. */
    | InvalidCollectionName
    /** A call on the blob store was rejected. */
    | BlobFailure(call: BlobCall, dest: string)
    /** A document write was rejected. */
    | WriteFailure(doc: seq<string>)

  /** An optional value: JavaScript's `null`/`undefined` versus a present one. */
  datatype Option<+T> = None | Some(value: T)

  datatype Result<+T> = Ok(value: T) | Err(error: Error)

  /** The join of two sibling outcomes: the first failure in sequence order
      wins, and the combination succeeds only when both succeed. */
  function Both(a: Result<()>, b: Result<()>): (r: Result<()>)
    ensures r.Ok? <==> a.Ok? && b.Ok?
    ensures a.Err? ==> r == a
    ensures a.Ok? && b.Err? ==> r == b
  {
    if a.Err? then a else b
  }
}

=== FILE: storage.dfy ===
/** The image upload protocol: `uploadFile` pushes a local file to the
    bucket when it is not there yet, makes sure the blob carries a download
    token, and builds the public download URL; `ImageSeed.upload` fills in
    the document id, checks the local file and caches the URL on the image
    instance. */
module Storage {
  import opened Results
  import opened Values
  import opened World
  import Strings
  import Uri

  const UrlPrefix: string := "https://firebasestorage.googleapis.com/v0/b/"
  const UrlQuery: string := "?alt=media&token="

  /** The metadata key holding a blob's download token. */
  const TokenKey: string := "firebaseStorageDownloadTokens"

  /** The destination with one leading `/` removed, if it has one. */
  function StripLeadingSlash(destination: string): (dest: string)
    ensures "/" + dest == destination || (dest == destination && !("/" <= destination))
  {
    if "/" <= destination then destination[1..] else destination
  }

  /** The download URL of the blob at `dest` for a token: the bucket's
      prefix, the encoded destination, and the token as the query. */
  function DownloadURL(bucket: string, dest: string, token: string): (url: string)
    ensures UrlPrefix + bucket + "/o/" <= url
    ensures |url| >= |token| && url[|url| - |token|..] == token
  {
    UrlPrefix + bucket + "/o/" + Uri.Encode(dest) + UrlQuery + token
  }

  /** What a download URL is made of. */
  datatype UrlParts = UrlParts(bucket: string, dest: string, token: string)

  /** `s` split at the first `sep`, where `after` must follow it. */
  function SplitAt(s: string, sep: char, after: string): Option<(string, string)>
  {
    var i := Strings.IndexOf(s, sep);
    if after <= s[i..] then Some((s[..i], s[i + |after|..])) else None
  }

  lemma SplitAtFirst(a: string, after: string, b: string, sep: char)
    requires sep !in a && |after| > 0 && after[0] == sep
    ensures SplitAt(a + after + b, sep, after) == Some((a, b))
  {
    var s := a + after + b;
    assert s == a + [sep] + (after[1..] + b);
    Strings.IndexOfSeparator(a, after[1..] + b, sep);
    assert s[|a|..] == after + b;
    assert s[..|a|] == a;
    assert s[|a| + |after|..] == b;
  }

  /** Reads bucket, destination and token back out of a download URL: the
      bucket runs to the first `/`, the encoded destination to the first
      `?`. */
  function ParseDownloadURL(url: string): Option<UrlParts>
  {
    if !(UrlPrefix <= url) then None
    else
      match SplitAt(url[|UrlPrefix|..], '/', "/o/")
      case None => None
      case Some((bucket, tail)) =>
        match SplitAt(tail, '?', UrlQuery)
        case None => None
        case Some((encoded, token)) =>
          match Uri.Decode(encoded)
          case None => None
          case Some(dest) => Some(UrlParts(bucket, dest, token))
  }

  lemma ParseComposed(bucket: string, enc: string, dest: string, token: string)
    requires '/' !in bucket && '?' !in enc
    requires Uri.Decode(enc) == Some(dest)
    ensures ParseDownloadURL(UrlPrefix + bucket + "/o/" + enc + UrlQuery + token) == Some(UrlParts(bucket, dest, token))
  {
    var url := UrlPrefix + bucket + "/o/" + enc + UrlQuery + token;
    var tail := enc + UrlQuery + token;
    var rest := bucket + "/o/" + tail;
    assert url == UrlPrefix + rest;
    assert UrlPrefix <= url && url[|UrlPrefix|..] == rest;
    assert "/o/"[0] == '/' && UrlQuery[0] == '?';
    SplitAtFirst(bucket, "/o/", tail, '/');
    SplitAtFirst(enc, UrlQuery, token, '?');
    assert SplitAt(rest, '/', "/o/") == Some((bucket, tail));
    assert SplitAt(tail, '?', UrlQuery) == Some((enc, token));
  }

  /** A download URL determines the bucket, destination and token it was
      built from, for a bucket name without `/`. */
  lemma ParseDownloadURLRoundTrip(bucket: string, dest: string, token: string)
    requires '/' !in bucket
    ensures ParseDownloadURL(DownloadURL(bucket, dest, token)) == Some(UrlParts(bucket, dest, token))
  {
    ParseComposed(bucket, Uri.Encode(dest), dest, token);
  }

  /** No download URL is the deletion sentinel. */
  lemma DownloadURLIsNotSentinel(bucket: string, dest: string, token: string)
    ensures DownloadURL(bucket, dest, token) != DeleteMarker
  {
    assert UrlPrefix[0] == 'h';
    assert DownloadURL(bucket, dest, token)[0] == UrlPrefix[0];
  }

  /** The download URL of `dest` once it carries a token. */
  predicate IsDownloadURLOf(env: Env, blobs: map<string, Blob>, dest: string, url: string)
  {
    && dest in blobs
    && TokenKey in blobs[dest].metadata
    && url == DownloadURL(env.bucketName, dest, blobs[dest].metadata[TokenKey])
  }

  /** The blob carries a non-empty download token. */
  predicate HasToken(b: Blob)
  {
    TokenKey in b.metadata && b.metadata[TokenKey] != ""
  }

  /** The last stages of `uploadFile` for a blob that exists: read its
      metadata, reuse a non-empty download token or generate one and store
      it, and build the download URL. */
  function ProvideToken(env: Env, st: State, doc: DocPath, dest: string): (r: Step<string>)
    requires dest in st.blobs
    ensures st.trace <= r.st.trace && EventsFor(Since(st, r.st), doc)
    ensures r.result.Ok? <==> AllOk(Since(st, r.st))
    ensures r.st.images == st.images && r.st.docs == st.docs && r.st.blobs.Keys == st.blobs.Keys
    ensures forall d :: d in st.blobs && d != dest ==> r.st.blobs[d] == st.blobs[d]
    ensures r.result.Err? ==> r.st.blobs == st.blobs
    ensures r.result.Ok? ==> IsDownloadURLOf(env, r.st.blobs, dest, r.result.value)
    ensures HasToken(st.blobs[dest]) ==>
      && r.st.blobs == st.blobs && r.st.minted == st.minted
      && (r.result.Ok? ==> r.result.value == DownloadURL(env.bucketName, dest, st.blobs[dest].metadata[TokenKey]))
    ensures !HasToken(st.blobs[dest]) && r.result.Ok? ==>
      var token := env.uuid(st.minted);
      && r.st.blobs == st.blobs[dest := st.blobs[dest].(metadata := st.blobs[dest].metadata[TokenKey := token])]
      && r.result.value == DownloadURL(env.bucketName, dest, token)
  {
    if dest in env.faults.getMetadata then
      Fail(st, st, doc, GetMetadata(dest), BlobFailure(GetMetadataCall, dest))
    else
      var st1 := Record(st, Event(doc, GetMetadata(dest), true));
      var blob := st1.blobs[dest];
      if HasToken(blob) then
        Step(Ok(DownloadURL(env.bucketName, dest, blob.metadata[TokenKey])), st1)
      else
        var token := env.uuid(st1.minted);
        var st2 := st1.(minted := st1.minted + 1);
        if dest in env.faults.setMetadata then
          Fail(st, st2, doc, SetMetadata(dest, token), BlobFailure(SetMetadataCall, dest))
        else
          var blob' := blob.(metadata := blob.metadata[TokenKey := token]);
          Step(Ok(DownloadURL(env.bucketName, dest, token)),
               Record(st2.(blobs := st2.blobs[dest := blob']), Event(doc, SetMetadata(dest, token), true)))
  }

  /** The middle stages of `uploadFile`: ask whether the blob exists, and
      upload the file when it does not or when `force` is set. */
  function EnsureBlob(env: Env, st: State, doc: DocPath, file: string, dest: string, force: bool): (r: Step<()>)
    ensures st.trace <= r.st.trace && EventsFor(Since(st, r.st), doc)
    ensures r.result.Ok? <==> AllOk(Since(st, r.st))
    ensures r.st.images == st.images && r.st.docs == st.docs && r.st.minted == st.minted
    ensures r.st.blobs.Keys <= st.blobs.Keys + {dest}
    ensures forall d :: d in st.blobs && d != dest ==> d in r.st.blobs && r.st.blobs[d] == st.blobs[d]
    ensures r.result.Err? ==> r.st.blobs == st.blobs
    ensures r.result.Ok? ==> r.st.blobs.Keys == st.blobs.Keys + {dest}
    ensures r.result.Ok? && (dest !in st.blobs || force) ==> r.st.blobs[dest] == Blob(file, map[])
    ensures r.result.Ok? && dest in st.blobs && !force ==> r.st.blobs == st.blobs
  {
    if dest in env.faults.existence then
      Fail(st, st, doc, Exists(dest), BlobFailure(ExistsCall, dest))
    else
      var st1 := Record(st, Event(doc, Exists(dest), true));
      if dest !in st.blobs || force then
        if dest in env.faults.upload then
          Fail(st, st1, doc, Upload(file, dest), BlobFailure(UploadCall, dest))
        else
          var r := Step(Ok(()), Record(st1.(blobs := st1.blobs[dest := Blob(file, map[])]), Event(doc, Upload(file, dest), true)));
          assert Since(st, r.st) == [Event(doc, Exists(dest), true), Event(doc, Upload(file, dest), true)];
          r
      else
        Step(Ok(()), st1)
  }

  /** `uploadFile(bucket, file, destination, force)` for the document at
      `doc`: remove one leading `/` from the destination; fail if the local
      file is missing; ask whether the blob exists and upload the file when
      it does not or when `force` is set; then provide the token and URL. */
  function UploadFile(env: Env, st: State, doc: DocPath, file: string, destination: string, force: bool): (r: Step<string>)
    ensures st.trace <= r.st.trace && EventsFor(Since(st, r.st), doc)
    ensures r.result.Ok? <==> AllOk(Since(st, r.st))
    ensures r.st.images == st.images && r.st.docs == st.docs
    ensures forall d :: d in st.blobs && d != StripLeadingSlash(destination) ==> d in r.st.blobs && r.st.blobs[d] == st.blobs[d]
    ensures file !in env.localFiles ==>
      && r.result == Err(FileNotFound(file)) && r.st.blobs == st.blobs && r.st.minted == st.minted
      && Since(st, r.st) == [Event(doc, StatLocal(file), false)]
    ensures r.result.Ok? ==> IsDownloadURLOf(env, r.st.blobs, StripLeadingSlash(destination), r.result.value)
    ensures r.result.Ok? ==> r.st.blobs.Keys == st.blobs.Keys + {StripLeadingSlash(destination)}
  {
    var dest := StripLeadingSlash(destination);
    if file !in env.localFiles then
      var r := Fail(st, st, doc, StatLocal(file), FileNotFound(file));
      assert Since(st, r.st) == [Event(doc, StatLocal(file), false)];
      r
    else
      var st1 := Record(st, Event(doc, StatLocal(file), true));
      var b := EnsureBlob(env, st1, doc, file, dest, force);
      SinceChain(st, st1, b.st);
      AllOkAppend(Since(st, st1), Since(st1, b.st));
      if b.result.Err? then Step(Err(b.result.error), b.st)
      else
        var r := ProvideToken(env, b.st, doc, dest);
        SinceChain(st, b.st, r.st);
        AllOkAppend(Since(st, b.st), Since(b.st, r.st));
        r
  }

  /** The upload call is made exactly when the blob is absent or the upload
      is forced, once the existence check has gone through. */
  lemma UploadedIffAbsentOrForced(env: Env, st: State, doc: DocPath, file: string, destination: string, force: bool)
    requires file in env.localFiles
    requires StripLeadingSlash(destination) !in env.faults.existence
    ensures var r := UploadFile(env, st, doc, file, destination, force);
      (exists i :: 0 <= i < |Since(st, r.st)| && Since(st, r.st)[i].op == Upload(file, StripLeadingSlash(destination)))
      <==> (StripLeadingSlash(destination) !in st.blobs || force)
  {
    var dest := StripLeadingSlash(destination);
    var r := UploadFile(env, st, doc, file, destination, force);
    var events := Since(st, r.st);
    if dest !in st.blobs || force {
      assert events[2].op == Upload(file, dest);
    } else {
      assert forall i :: 0 <= i < |events| ==> !events[i].op.Upload?;
    }
  }

  /** A blob that already carries a token and is not uploaded again keeps
      it: the URL is built from it and no token is generated. */
  lemma ExistingTokenReused(env: Env, st: State, doc: DocPath, file: string, destination: string)
    requires file in env.localFiles
    requires var dest := StripLeadingSlash(destination);
      && dest !in env.faults.existence && dest !in env.faults.getMetadata
      && dest in st.blobs && TokenKey in st.blobs[dest].metadata && st.blobs[dest].metadata[TokenKey] != ""
    ensures var r := UploadFile(env, st, doc, file, destination, false);
      var dest := StripLeadingSlash(destination);
      && r.result == Ok(DownloadURL(env.bucketName, dest, st.blobs[dest].metadata[TokenKey]))
      && r.st.blobs == st.blobs && r.st.minted == st.minted
  {
  }

  /** `ImageSeed.upload(bucket, docId)` for the image instance `id` while
      importing the document at `doc`: a cached URL is returned at once;
      otherwise the first `{id}` of both paths becomes the document id, a
      missing local file fails, and a successful upload is cached. */
  function ImageUpload(env: Env, st: State, doc: DocPath, id: ImageId, docId: string): (r: Step<string>)
    requires id in st.images
    ensures st.trace <= r.st.trace && EventsFor(Since(st, r.st), doc)
    ensures r.result.Ok? <==> AllOk(Since(st, r.st))
    ensures r.st.docs == st.docs && r.st.images.Keys == st.images.Keys
    ensures st.images[id].downloadURL.Some? ==> r == Step(Ok(st.images[id].downloadURL.value), st)
    ensures r.result.Ok? ==> r.st.images == st.images[id := st.images[id].(downloadURL := Some(r.result.value))]
    ensures r.result.Err? ==> r.st.images == st.images
  {
    var img := st.images[id];
    if img.downloadURL.Some? then Step(Ok(img.downloadURL.value), st)
    else
      UploadImageFile(env, st, doc, id,
        Strings.ReplaceFirstJs(img.localPath, Strings.IdPlaceholder, docId),
        Strings.ReplaceFirstJs(img.remotePath, Strings.IdPlaceholder, docId))
  }

  /** The upload of an uncached image once its paths are known: a missing
      local file fails, and a successful upload is cached. */
  function UploadImageFile(env: Env, st: State, doc: DocPath, id: ImageId, localPath: string, remotePath: string): (r: Step<string>)
    requires id in st.images
    ensures st.trace <= r.st.trace && EventsFor(Since(st, r.st), doc)
    ensures r.result.Ok? <==> AllOk(Since(st, r.st))
    ensures r.st.docs == st.docs && r.st.images.Keys == st.images.Keys
    ensures r.result.Ok? ==> r.st.images == st.images[id := st.images[id].(downloadURL := Some(r.result.value))]
    ensures r.result.Err? ==> r.st.images == st.images
    ensures r.result.Ok? ==> IsDownloadURLOf(env, r.st.blobs, StripLeadingSlash(remotePath), r.result.value)
    ensures localPath !in env.localFiles ==>
      && r.result == Err(FileNotFound(localPath)) && r.st.blobs == st.blobs && |Since(st, r.st)| == 1
  {
    if localPath !in env.localFiles then
      Fail(st, st, doc, StatLocal(localPath), FileNotFound(localPath))
    else
      var st1 := Record(st, Event(doc, StatLocal(localPath), true));
      var u := UploadFile(env, st1, doc, localPath, remotePath, false);
      SinceChain(st, st1, u.st);
      assert Since(st, st1) == [Event(doc, StatLocal(localPath), true)];
      AllOkAppend(Since(st, st1), Since(st1, u.st));
      EventsForAppend(Since(st, st1), Since(st1, u.st), doc);
      if u.result.Err? then u
      else Step(u.result, u.st.(images := u.st.images[id := st.images[id].(downloadURL := Some(u.result.value))]))
  }

  /** A successful upload of an uncached image returns the download URL of
      its remote path with the first `{id}` replaced by the document id, as
      JavaScript's `replace` does it, and one leading `/` removed. For a
      document id without `$` that is the id inserted verbatim. */
  lemma ImageUploadTarget(env: Env, st: State, doc: DocPath, id: ImageId, docId: string)
    requires id in st.images && st.images[id].downloadURL.None?
    ensures var r := ImageUpload(env, st, doc, id, docId);
      var dest := StripLeadingSlash(Strings.ReplaceFirstJs(st.images[id].remotePath, Strings.IdPlaceholder, docId));
      r.result.Ok? ==> IsDownloadURLOf(env, r.st.blobs, dest, r.result.value)
    ensures var r := ImageUpload(env, st, doc, id, docId);
      var dest := StripLeadingSlash(Strings.ReplaceFirst(st.images[id].remotePath, Strings.IdPlaceholder, docId));
      r.result.Ok? && '$' !in docId ==> IsDownloadURLOf(env, r.st.blobs, dest, r.result.value)
  {
  }

  /** An image whose local file, after the id is filled in, is missing
      fails without any remote call and leaves the bucket and the cache as
      they were. */
  lemma ImageUploadMissingFile(env: Env, st: State, doc: DocPath, id: ImageId, docId: string)
    requires id in st.images && st.images[id].downloadURL.None?
    requires Strings.ReplaceFirstJs(st.images[id].localPath, Strings.IdPlaceholder, docId) !in env.localFiles
    ensures var r := ImageUpload(env, st, doc, id, docId);
      && r.result == Err(FileNotFound(Strings.ReplaceFirstJs(st.images[id].localPath, Strings.IdPlaceholder, docId)))
      && r.st.blobs == st.blobs && r.st.images == st.images && |Since(st, r.st)| == 1
  {
  }

  /** Uploading an image instance again after a success, for any document,
      returns the same URL and changes nothing. */
  lemma {:induction false} ImageUploadIdempotent(env: Env, st: State, doc: DocPath, id: ImageId, docId: string, doc': DocPath, docId': string)
    requires id in st.images
    requires ImageUpload(env, st, doc, id, docId).result.Ok?
    ensures var r := ImageUpload(env, st, doc, id, docId);
      ImageUpload(env, r.st, doc', id, docId') == Step(r.result, r.st)
  {
  }
}

=== FILE: strings.dfy ===
/** The string operations the engine performs on paths and document ids,
    with JavaScript's semantics written out: `split` on a one-character
    separator, the first-match `replace` of a regular expression without
    capture groups, and the decimal keys `for..in` produces for array indices. */
module Strings {
  import opened Results

  /** Number of occurrences of `c` in `s`. */
  function Count(s: string, c: char): nat
  {
    if |s| == 0 then 0 else (if s[0] == c then 1 else 0) + Count(s[1..], c)
  }

  lemma CountAppend(a: string, b: string, c: char)
    ensures Count(a + b, c) == Count(a, c) + Count(b, c)
  {
    if |a| > 0 {
      assert (a + b)[1..] == a[1..] + b;
      CountAppend(a[1..], b, c);
    } else {
      assert a + b == b;
    }
  }

  lemma CountZero(s: string, c: char)
    ensures Count(s, c) == 0 <==> c !in s
  {
    if |s| > 0 {
      CountZero(s[1..], c);
      assert s == [s[0]] + s[1..];
    }
  }

  /** `s.split(c)` for a one-character separator: the maximal runs between
      separators, so an empty string and empty runs are kept as parts. */
  function Split(s: string, c: char): (parts: seq<string>)
    ensures |parts| == Count(s, c) + 1
    ensures forall i :: 0 <= i < |parts| ==> c !in parts[i]
  {
    if |s| == 0 then [""]
    else
      var rest := Split(s[1..], c);
      if s[0] == c then [""] + rest
      else [[s[0]] + rest[0]] + rest[1..]
  }

  /** `parts.join(c)`. */
  function Join(parts: seq<string>, c: char): string
  {
    if |parts| == 0 then ""
    else if |parts| == 1 then parts[0]
    else parts[0] + [c] + Join(parts[1..], c)
  }

  /** Joining the parts of a split gives the original string back. */
  lemma {:induction false} JoinSplit(s: string, c: char)
    ensures Join(Split(s, c), c) == s
  {
    if |s| > 0 {
      var rest := Split(s[1..], c);
      JoinSplit(s[1..], c);
      if s[0] == c {
        assert Split(s, c) == [""] + rest;
        assert s == [c] + s[1..];
      } else {
        var parts := [[s[0]] + rest[0]] + rest[1..];
        assert Split(s, c) == parts;
        if |rest| == 1 {
          assert s == [s[0]] + rest[0];
        } else {
          assert parts[1..] == rest[1..];
          assert Join(rest, c) == rest[0] + [c] + Join(rest[1..], c);
          assert s == [s[0]] + s[1..];
        }
      }
    }
  }

  /** Splitting `a + [c] + b` where neither side holds the separator gives
      exactly `[a, b]`. */
  lemma SplitPair(a: string, b: string, c: char)
    requires c !in a && c !in b
    ensures Split(a + [c] + b, c) == [a, b]
  {
    var s := a + [c] + b;
    JoinSplit(s, c);
    CountAppend(a + [c], b, c);
    CountAppend(a, [c], c);
    CountZero(a, c);
    CountZero(b, c);
    var parts := Split(s, c);
    assert |parts| == 2;
    assert s == parts[0] + [c] + parts[1];
    SeparatorPosition(a, b, parts[0], parts[1], c);
  }

  /** A string with exactly one separator decomposes around it in one way. */
  lemma SeparatorPosition(a: string, b: string, x: string, y: string, c: char)
    requires c !in a && c !in b && c !in x && c !in y
    requires a + [c] + b == x + [c] + y
    ensures a == x && b == y
  {
    var s := a + [c] + b;
    IndexOfSeparator(a, b, c);
    IndexOfSeparator(x, y, c);
    assert a == s[..|a|] == x;
    assert b == s[|a| + 1..] == y;
  }

  /** Position of the first `c` in `s`, or `|s|` when there is none. */
  function IndexOf(s: string, c: char): (i: nat)
    ensures i <= |s|
  {
    if |s| == 0 || s[0] == c then 0 else 1 + IndexOf(s[1..], c)
  }

  lemma {:induction false} IndexOfSeparator(a: string, b: string, c: char)
    requires c !in a
    ensures IndexOf(a + [c] + b, c) == |a|
  {
    if |a| > 0 {
      assert (a + [c] + b)[1..] == a[1..] + [c] + b;
      IndexOfSeparator(a[1..], b, c);
    }
  }

  /** `pat` occurs in `s` at position `i`. */
  predicate OccursAt(s: string, pat: string, i: nat)
  {
    i + |pat| <= |s| && s[i..i + |pat|] == pat
  }

  /** Position of the first occurrence of `pat` in `s` at or after `from`. */
  function FindFrom(s: string, pat: string, from: nat): (r: Option<nat>)
    requires from <= |s|
    ensures r.Some? ==> from <= r.value && OccursAt(s, pat, r.value)
    ensures r.Some? ==> forall j :: from <= j < r.value ==> !OccursAt(s, pat, j)
    ensures r.None? ==> forall j :: from <= j <= |s| ==> !OccursAt(s, pat, j)
    decreases |s| - from
  {
    if OccursAt(s, pat, from) then Some(from)
    else if from == |s| then None
    else FindFrom(s, pat, from + 1)
  }

  /** Position of the first occurrence of `pat` in `s`, as the first match
      of a regular expression that is the literal `pat`. */
  function Find(s: string, pat: string): (r: Option<nat>)
    ensures r.Some? ==> OccursAt(s, pat, r.value)
    ensures r.Some? ==> forall j :: 0 <= j < r.value ==> !OccursAt(s, pat, j)
    ensures r.None? ==> forall j :: 0 <= j <= |s| ==> !OccursAt(s, pat, j)
  {
    FindFrom(s, pat, 0)
  }

  /** The replacement text JavaScript's `replace` actually inserts for a
      replacement string `rep` when the pattern has no capture groups:
      `$$` stands for `$`, `$&` for the matched text, `` $` `` for the text
      before the match and `$'` for the text after it; every other `$` is
      literal. */
  function Expand(rep: string, matched: string, before: string, after: string): (r: string)
    ensures '$' !in rep ==> r == rep
  {
    if |rep| == 0 then ""
    else if rep[0] == '$' && |rep| >= 2 && rep[1] in "$&`'" then
      (match rep[1]
       case '$' => "$"
       case '&' => matched
       case '`' => before
       case _ => after)
      + Expand(rep[2..], matched, before, after)
    else
      var tail := rep[1..];
      assert '$' !in rep ==> '$' !in tail && rep == [rep[0]] + tail;
      [rep[0]] + Expand(tail, matched, before, after)
  }

  /** `s.replace(/pat/, rep)` as written in the source: the first match only,
      with the replacement string's `$` patterns expanded. The text before
      the first match and the text after it are kept. */
  function ReplaceFirstJs(s: string, pat: string, rep: string): (r: string)
    ensures Find(s, pat).None? ==> r == s
    ensures Find(s, pat).Some? ==>
      var i := Find(s, pat).value;
      var tail := s[i + |pat|..];
      && s[..i] <= r && |tail| <= |r| && r[|r| - |tail|..] == tail
  {
    match Find(s, pat)
    case None => s
    case Some(i) =>
      var r := s[..i] + Expand(rep, pat, s[..i], s[i + |pat|..]) + s[i + |pat|..];
      assert s[..i] <= r;
      r
  }

  /** The first occurrence of `pat` replaced by `rep` taken literally. */
  function ReplaceFirst(s: string, pat: string, rep: string): string
  {
    match Find(s, pat)
    case None => s
    case Some(i) => s[..i] + rep + s[i + |pat|..]
  }

  /** A string without the pattern is left unchanged. */
  lemma ReplaceFirstAbsent(s: string, pat: string, rep: string)
    requires forall j :: 0 <= j <= |s| ==> !OccursAt(s, pat, j)
    ensures ReplaceFirst(s, pat, rep) == s
    ensures ReplaceFirstJs(s, pat, rep) == s
  {
  }

  /** Literal first-match replacement: the text before the first occurrence
      is kept, `rep` appears verbatim in its place, and everything after it,
      including any later occurrence of the pattern, is kept too. */
  lemma ReplaceFirstVerbatim(s: string, pat: string, rep: string, i: nat)
    requires OccursAt(s, pat, i)
    requires forall j :: 0 <= j < i ==> !OccursAt(s, pat, j)
    ensures var r := ReplaceFirst(s, pat, rep);
      && |r| == |s| - |pat| + |rep|
      && r[..i] == s[..i]
      && r[i..i + |rep|] == rep
      && r[i + |rep|..] == s[i + |pat|..]
  {
  }

  /** Only the first occurrence is replaced: a later, non-overlapping
      occurrence of the pattern survives, shifted by the length of what was
      inserted, under both the source's `replace` and the literal one. */
  lemma ReplaceFirstKeepsLater(s: string, pat: string, rep: string, i: nat, k: nat)
    requires OccursAt(s, pat, i)
    requires forall j :: 0 <= j < i ==> !OccursAt(s, pat, j)
    requires i + |pat| <= k && OccursAt(s, pat, k)
    ensures OccursAt(ReplaceFirstJs(s, pat, rep), pat, k - |pat| + |Expand(rep, pat, s[..i], s[i + |pat|..])|)
    ensures '$' !in rep ==> OccursAt(ReplaceFirstJs(s, pat, rep), pat, k - |pat| + |rep|)
    ensures OccursAt(ReplaceFirst(s, pat, rep), pat, k - |pat| + |rep|)
  {
    FindFirst(s, pat, rep, i);
    var e := Expand(rep, pat, s[..i], s[i + |pat|..]);
    KeepsLater(s, pat, i, k, e);
    KeepsLater(s, pat, i, k, rep);
    assert ReplaceFirstJs(s, pat, rep) == s[..i] + e + s[i + |pat|..];
    assert '$' !in rep ==> e == rep;
  }

  /** Both replacements at the first occurrence, spelled out. */
  lemma FindFirst(s: string, pat: string, rep: string, i: nat)
    requires OccursAt(s, pat, i)
    requires forall j :: 0 <= j < i ==> !OccursAt(s, pat, j)
    ensures Find(s, pat) == Some(i)
    ensures ReplaceFirstJs(s, pat, rep) == s[..i] + Expand(rep, pat, s[..i], s[i + |pat|..]) + s[i + |pat|..]
    ensures ReplaceFirst(s, pat, rep) == s[..i] + rep + s[i + |pat|..]
  {
    FindIs(s, pat, i);
    ReplaceAt(s, pat, rep, i);
  }

  lemma ReplaceAt(s: string, pat: string, rep: string, i: nat)
    requires Find(s, pat) == Some(i)
    ensures ReplaceFirstJs(s, pat, rep) == s[..i] + Expand(rep, pat, s[..i], s[i + |pat|..]) + s[i + |pat|..]
    ensures ReplaceFirst(s, pat, rep) == s[..i] + rep + s[i + |pat|..]
  {
  }

  /** The first occurrence is the one `Find` returns. */
  lemma FindIs(s: string, pat: string, i: nat)
    requires OccursAt(s, pat, i)
    requires forall j :: 0 <= j < i ==> !OccursAt(s, pat, j)
    ensures Find(s, pat) == Some(i)
  {
    var f := Find(s, pat);
    assert i <= |s|;
    assert f.Some?;
    assert !(f.value < i);
    assert !(i < f.value);
  }

  /** Putting `e` in place of the occurrence at `i` moves the one at `k`
      by the difference in length. */
  lemma KeepsLater(s: string, pat: string, i: nat, k: nat, e: string)
    requires OccursAt(s, pat, i)
    requires i + |pat| <= k && OccursAt(s, pat, k)
    ensures OccursAt(s[..i] + e + s[i + |pat|..], pat, k - |pat| + |e|)
  {
    var r := s[..i] + e + s[i + |pat|..];
    var tail := s[i + |pat|..];
    assert r[i + |e|..] == tail;
    var k' := k - |pat| + |e|;
    assert r[k'..k' + |pat|] == tail[k - i - |pat|..k - i] == s[k..k + |pat|];
  }

  /** Both forms of replacement agree whenever the replacement has no `$`. */
  lemma ReplaceFirstAgrees(s: string, pat: string, rep: string)
    requires '$' !in rep
    ensures ReplaceFirstJs(s, pat, rep) == ReplaceFirst(s, pat, rep)
  {
    match Find(s, pat)
    case None =>
    case Some(i) =>
      assert Expand(rep, pat, s[..i], s[i + |pat|..]) == rep;
  }

  /** The placeholder the image paths carry for the document id. */
  const IdPlaceholder: string := "{id}"

  /** A document id of `$&` leaves the placeholder in the path under the
      source's `replace`, where the literal replacement inserts the id. */
  lemma DollarIdKeepsPlaceholder()
    ensures ReplaceFirstJs("images/{id}", IdPlaceholder, "$&") == "images/{id}"
    ensures ReplaceFirst("images/{id}", IdPlaceholder, "$&") == "images/$&"
  {
    var s := "images/{id}";
    assert OccursAt(s, IdPlaceholder, 7);
    forall j | 0 <= j < 7
      ensures !OccursAt(s, IdPlaceholder, j)
    {
      assert s[j] != '{';
      assert s[j..j + 4][0] == s[j];
    }
    assert Find(s, IdPlaceholder) == Some(7);
    assert s[..7] == "images/";
    assert s[11..] == "";
    var rep := "$&";
    assert rep[0] == '$' && rep[1] == '&' && rep[1] in "$&`'";
    assert rep[2..] == "";
    assert Expand(rep, IdPlaceholder, "images/", "") == IdPlaceholder;
  }

  function DigitChar(d: nat): char
    requires d < 10
  {
    "0123456789"[d]
  }

  /** The decimal form of `n`, as `for..in` yields array indices. */
  function Decimal(n: nat): (r: string)
    ensures |r| >= 1
    ensures forall i :: 0 <= i < |r| ==> '0' <= r[i] <= '9'
  {
    if n < 10 then [DigitChar(n)] else Decimal(n / 10) + [DigitChar(n % 10)]
  }

  /** The number a string of decimal digits denotes. */
  function DecimalValue(s: string): nat
    requires forall i :: 0 <= i < |s| ==> '0' <= s[i] <= '9'
  {
    if |s| == 0 then 0
    else DecimalValue(s[..|s| - 1]) * 10 + (s[|s| - 1] as int - '0' as int)
  }

  /** Reading the decimal form back gives the index, so distinct indices
      have distinct keys. */
  lemma {:induction false} DecimalRoundTrip(n: nat)
    ensures DecimalValue(Decimal(n)) == n
  {
    if n >= 10 {
      var s := Decimal(n);
      DecimalRoundTrip(n / 10);
      assert s[..|s| - 1] == Decimal(n / 10);
    }
  }

  lemma DecimalInjective(m: nat, n: nat)
    requires Decimal(m) == Decimal(n)
    ensures m == n
  {
    DecimalRoundTrip(m);
    DecimalRoundTrip(n);
  }
}

=== FILE: uri.dfy ===
/** JavaScript's `encodeURIComponent`, which the download URL applies to the
    destination path: every character outside the unreserved set is written
    as the `%XX` escapes of its UTF-8 bytes, with upper-case hex digits.
    `Decode` undoes it, so the path component of a download URL determines
    the destination it was built from. */
module Uri {
  import opened Results

  /** The characters `encodeURIComponent` leaves as they are. */
  predicate Unreserved(c: char)
  {
    || 'A' <= c <= 'Z'
    || 'a' <= c <= 'z'
    || '0' <= c <= '9'
    || c in "-_.!~*'()"
  }

  predicate IsScalarValue(cp: int)
  {
    0 <= cp < 0xD800 || 0xE000 <= cp < 0x11_0000
  }

  /** The UTF-8 encoding of one Unicode scalar value. */
  function Utf8(cp: int): (bytes: seq<int>)
    requires IsScalarValue(cp)
    ensures 1 <= |bytes| <= 4
    ensures forall i :: 0 <= i < |bytes| ==> 0 <= bytes[i] < 256
  {
    if cp < 0x80 then [cp]
    else if cp < 0x800 then [0xC0 + cp / 64, 0x80 + cp % 64]
    else if cp < 0x1_0000 then [0xE0 + cp / 4096, 0x80 + (cp / 64) % 64, 0x80 + cp % 64]
    else [0xF0 + cp / 262144, 0x80 + (cp / 4096) % 64, 0x80 + (cp / 64) % 64, 0x80 + cp % 64]
  }

  /** Number of bytes of a UTF-8 sequence, read off its first byte. */
  function SequenceLength(lead: int): Option<nat>
  {
    if 0 <= lead < 0x80 then Some(1)
    else if 0xC0 <= lead < 0xE0 then Some(2)
    else if 0xE0 <= lead < 0xF0 then Some(3)
    else if 0xF0 <= lead < 0xF8 then Some(4)
    else None
  }

  predicate Continuation(b: int)
  {
    0x80 <= b < 0xC0
  }

  /** The scalar value a complete UTF-8 sequence denotes; overlong forms,
      surrogates and values past U+10FFFF are refused. */
  function Utf8Decode(bytes: seq<int>): (r: Option<int>)
    ensures r.Some? ==> IsScalarValue(r.value)
  {
    if |bytes| == 0 || SequenceLength(bytes[0]) != Some(|bytes|) then None
    else if exists i :: 1 <= i < |bytes| && !Continuation(bytes[i]) then None
    else
      var cp :=
        if |bytes| == 1 then bytes[0]
        else if |bytes| == 2 then (bytes[0] - 0xC0) * 64 + (bytes[1] - 0x80)
        else if |bytes| == 3 then ((bytes[0] - 0xE0) * 64 + (bytes[1] - 0x80)) * 64 + (bytes[2] - 0x80)
        else (((bytes[0] - 0xF0) * 64 + (bytes[1] - 0x80)) * 64 + (bytes[2] - 0x80)) * 64 + (bytes[3] - 0x80);
      var least := if |bytes| == 1 then 0 else if |bytes| == 2 then 0x80 else if |bytes| == 3 then 0x800 else 0x1_0000;
      if least <= cp && IsScalarValue(cp) then Some(cp) else None
  }

  lemma Div64(x: int)
    requires x >= 0
    ensures (x / 64) / 64 == x / 4096
    ensures ((x / 64) / 64) / 64 == x / 262144
  {
  }

  /** UTF-8 decoding inverts UTF-8 encoding. */
  lemma Utf8RoundTrip(cp: int)
    requires IsScalarValue(cp)
    ensures Utf8Decode(Utf8(cp)) == Some(cp)
  {
    Div64(cp);
    var bytes := Utf8(cp);
    assert SequenceLength(bytes[0]) == Some(|bytes|);
    assert forall i :: 1 <= i < |bytes| ==> Continuation(bytes[i]);
  }

  function HexDigit(d: int): char
    requires 0 <= d < 16
  {
    if d < 10 then ('0' as int + d) as char else ('A' as int + d - 10) as char
  }

  /** The value of a hex digit; both letter cases are accepted. */
  function HexValue(c: char): Option<int>
  {
    if '0' <= c <= '9' then Some(c as int - '0' as int)
    else if 'A' <= c <= 'F' then Some(c as int - 'A' as int + 10)
    else if 'a' <= c <= 'f' then Some(c as int - 'a' as int + 10)
    else None
  }

  /** `%XX` for one byte. */
  function Escape(b: int): string
    requires 0 <= b < 256
  {
    ['%', HexDigit(b / 16), HexDigit(b % 16)]
  }

  function Escapes(bytes: seq<int>): (r: string)
    requires forall i :: 0 <= i < |bytes| ==> 0 <= bytes[i] < 256
    ensures |r| == 3 * |bytes|
  {
    if |bytes| == 0 then "" else Escape(bytes[0]) + Escapes(bytes[1..])
  }

  function EncodeChar(c: char): (r: string)
    ensures |r| >= 1
  {
    if Unreserved(c) then [c] else Escapes(Utf8(c as int))
  }

  /** `encodeURIComponent(s)`. `decodeURIComponent` gives `s` back, and the
      result consists of unreserved characters, `%` and upper-case hex
      digits only; in particular it holds no `/`, `?`, `&` or `#`, so it
      cannot end the path or start the query of the URL it is placed in. */
  function Encode(s: string): (r: string)
    ensures Decode(r) == Some(s)
    ensures forall i :: 0 <= i < |r| ==> EncodedChar(r[i])
    ensures '/' !in r && '?' !in r && '&' !in r && '#' !in r
    decreases |s|
  {
    if |s| == 0 then ""
    else
      var head := EncodeChar(s[0]);
      var rest := Encode(s[1..]);
      DecodeChar(s[0], rest);
      assert [s[0]] + s[1..] == s;
      EncodeCharAlphabet(s[0]);
      AlphabetAppend(head, rest);
      head + rest
  }

  lemma AlphabetAppend(a: string, b: string)
    requires forall i :: 0 <= i < |a| ==> EncodedChar(a[i])
    requires forall i :: 0 <= i < |b| ==> EncodedChar(b[i])
    ensures forall i :: 0 <= i < |a + b| ==> EncodedChar((a + b)[i])
    ensures '/' !in a + b && '?' !in a + b && '&' !in a + b && '#' !in a + b
  {
    forall i | 0 <= i < |a + b|
      ensures EncodedChar((a + b)[i])
    {
      if i < |a| {
        assert (a + b)[i] == a[i];
      } else {
        assert (a + b)[i] == b[i - |a|];
      }
    }
  }

  /** The byte a `%XX` escape at the start of `s` denotes. */
  function ReadEscape(s: string): Option<int>
  {
    if |s| < 3 || s[0] != '%' || HexValue(s[1]).None? || HexValue(s[2]).None? then None
    else Some(HexValue(s[1]).value * 16 + HexValue(s[2]).value)
  }

  /** The bytes of `n` consecutive escapes at the start of `s`. */
  function ReadEscapes(s: string, n: nat): Option<seq<int>>
    decreases n
  {
    if n == 0 then Some([])
    else if |s| < 3 then None
    else match (ReadEscape(s), ReadEscapes(s[3..], n - 1))
      case (Some(b), Some(bs)) => Some([b] + bs)
      case _ => None
  }

  /** `decodeURIComponent(s)`, or `None` where it would throw. */
  function Decode(s: string): Option<string>
    decreases |s|
  {
    if |s| == 0 then Some("")
    else if s[0] != '%' then
      match Decode(s[1..])
      case Some(rest) => Some([s[0]] + rest)
      case None => None
    else
      match ReadEscape(s)
      case None => None
      case Some(lead) =>
        match SequenceLength(lead)
        case None => None
        case Some(n) =>
          if |s| < 3 * n then None
          else
            match (ReadEscapes(s, n), Decode(s[3 * n..]))
            case (Some(bytes), Some(rest)) =>
              (match Utf8Decode(bytes)
               case Some(cp) => Some([cp as char] + rest)
               case None => None)
            case _ => None
  }

  lemma HexRoundTrip(d: int)
    requires 0 <= d < 16
    ensures HexValue(HexDigit(d)) == Some(d)
  {
  }

  lemma {:induction false} ReadEscapesRoundTrip(bytes: seq<int>, rest: string)
    requires forall i :: 0 <= i < |bytes| ==> 0 <= bytes[i] < 256
    ensures ReadEscapes(Escapes(bytes) + rest, |bytes|) == Some(bytes)
  {
    if |bytes| > 0 {
      var b := bytes[0];
      var s := Escapes(bytes) + rest;
      HexRoundTrip(b / 16);
      HexRoundTrip(b % 16);
      assert s[..3] == Escape(b);
      assert ReadEscape(s) == Some(b);
      assert s[3..] == Escapes(bytes[1..]) + rest;
      ReadEscapesRoundTrip(bytes[1..], rest);
      assert [b] + bytes[1..] == bytes;
    }
  }

  function Prepend(c: char, o: Option<string>): Option<string>
  {
    match o
    case Some(r) => Some([c] + r)
    case None => None
  }

  /** One step of decoding: a complete escaped UTF-8 sequence at the front
      becomes its character. */
  lemma DecodeStep(s: string, bytes: seq<int>, cp: int)
    requires |bytes| >= 1 && |s| >= 3 * |bytes| && s[0] == '%'
    requires ReadEscape(s) == Some(bytes[0])
    requires SequenceLength(bytes[0]) == Some(|bytes|)
    requires ReadEscapes(s, |bytes|) == Some(bytes)
    requires Utf8Decode(bytes) == Some(cp)
    ensures Decode(s) == Prepend(cp as char, Decode(s[3 * |bytes|..]))
  {
  }

  /** Decoding reads the escapes of a valid UTF-8 sequence back as the
      character it encodes. */
  lemma DecodeEscapes(bytes: seq<int>, cp: int, rest: string)
    requires forall i :: 0 <= i < |bytes| ==> 0 <= bytes[i] < 256
    requires Utf8Decode(bytes) == Some(cp)
    ensures Decode(Escapes(bytes) + rest) == Prepend(cp as char, Decode(rest))
  {
    var s := Escapes(bytes) + rest;
    ReadEscapesRoundTrip(bytes, rest);
    EscapesFront(bytes, rest);
    DecodeStep(s, bytes, cp);
  }

  /** The escapes of a non-empty byte sequence start with that of its first
      byte and are followed by what comes after them. */
  lemma EscapesFront(bytes: seq<int>, rest: string)
    requires forall i :: 0 <= i < |bytes| ==> 0 <= bytes[i] < 256
    requires |bytes| >= 1
    ensures (Escapes(bytes) + rest)[0] == '%'
    ensures ReadEscape(Escapes(bytes) + rest) == Some(bytes[0])
    ensures (Escapes(bytes) + rest)[3 * |bytes|..] == rest
  {
    var b := bytes[0];
    var e := Escapes(bytes);
    assert e == Escape(b) + Escapes(bytes[1..]);
    assert e[0] == '%' && e[1] == HexDigit(b / 16) && e[2] == HexDigit(b % 16);
    ReadEscapeOf(b, e + rest);
    assert (e + rest)[|e|..] == rest;
  }

  /** An escape is read back as its byte, whatever follows it. */
  lemma ReadEscapeOf(b: int, s: string)
    requires 0 <= b < 256
    requires |s| >= 3 && s[0] == '%' && s[1] == HexDigit(b / 16) && s[2] == HexDigit(b % 16)
    ensures ReadEscape(s) == Some(b)
  {
    HexRoundTrip(b / 16);
    HexRoundTrip(b % 16);
    assert HexValue(s[1]).value * 16 + HexValue(s[2]).value == (b / 16) * 16 + b % 16 == b;
  }

  /** Decoding consumes exactly the encoding of the first character. */
  lemma DecodeChar(c: char, rest: string)
    ensures Decode(EncodeChar(c) + rest) == Prepend(c, Decode(rest))
  {
    if Unreserved(c) {
      var s := EncodeChar(c) + rest;
      assert s[0] == c && s[1..] == rest;
    } else {
      Utf8RoundTrip(c as int);
      DecodeEscapes(Utf8(c as int), c as int, rest);
    }
  }

  /** Distinct paths have distinct encodings. */
  lemma EncodeInjective(s: string, t: string)
    requires Encode(s) == Encode(t)
    ensures s == t
  {
    assert Some(s) == Decode(Encode(s)) == Decode(Encode(t)) == Some(t);
  }

  /** The characters an encoding can contain. */
  predicate EncodedChar(c: char)
  {
    Unreserved(c) || c == '%' || '0' <= c <= '9' || 'A' <= c <= 'F'
  }

  lemma {:induction false} EscapesAlphabet(bytes: seq<int>)
    requires forall i :: 0 <= i < |bytes| ==> 0 <= bytes[i] < 256
    ensures forall i :: 0 <= i < |Escapes(bytes)| ==> EncodedChar(Escapes(bytes)[i])
  {
    if |bytes| > 0 {
      EscapesAlphabet(bytes[1..]);
    }
  }

  lemma EncodeCharAlphabet(c: char)
    ensures forall i :: 0 <= i < |EncodeChar(c)| ==> EncodedChar(EncodeChar(c)[i])
  {
    if !Unreserved(c) {
      EscapesAlphabet(Utf8(c as int));
    }
  }

  /** The slash of a nested destination becomes `%2F`. */
  lemma EncodeSlash()
    ensures EncodeChar('/') == "%2F"
  {
    assert Utf8('/' as int) == [47];
    assert Escapes([47]) == Escape(47) + Escapes([]);
  }
}

=== FILE: values.dfy ===
/** The values the engine works on: `Seed`, the document data a caller
    declares, with its placeholders (image, reference, geo point,
    subcollection), and `Data`, the Firestore-native values a document is
    written with. `Data` has no placeholder constructor, so every resolved
    tree is free of placeholders by construction. */
module Values {
  import opened Results

  /** A JavaScript number; the engine never computes with one. */
  datatype Number = Number(bits: bv64)

  /** The instant a `Date` or a Firestore `Timestamp` denotes, carried
      opaquely from one to the other. */
  datatype Instant = Instant(repr: int)

  /** The values `resolve` passes through untouched. */
  datatype Primitive = Null | Undefined | Bool(b: bool) | Num(n: Number) | Str(s: string)

  /** An array element, or a hole: an index the array has no element at. */
  datatype Slot<+T> = Hole | Item(value: T)

  /** One entry of a plain object, in insertion order. */
  datatype Field<+T> = Field(key: string, value: T)

  /** Identity of an `ImageSeed` instance; the instance itself, with its
      mutable download-URL cache, lives in the state. */
  type ImageId = nat

  /** A value inside a document's seed data. */
  datatype Seed =
    | Plain(p: Primitive)
    | Date(date: Instant)
    | Stamp(stamp: Instant)
    | Image(image: ImageId)
    | Ref(collection: string, document: string)
    | Geo(latitude: Number, longitude: Number)
    | Subcollection(docs: seq<DocSeed>)
    | Array(items: seq<Slot<Seed>>)
    | Object(fields: seq<Field<Seed>>)

  /** A document to write: its id and its seed data. */
  datatype DocSeed = DocSeed(id: string, data: Seed)

  /** A Firestore-native value, as handed to a document write. */
  datatype Data =
    | PrimitiveValue(p: Primitive)
    | TimestampValue(at: Instant)
    | GeoPointValue(latitude: Number, longitude: Number)
    | ReferenceValue(collection: string, document: string)
    | ArrayValue(items: seq<Slot<Data>>)
    | MapValue(fields: seq<Field<Data>>)

  /** An image placeholder: where the file is, where it goes, and the
      download URL once it has been uploaded. */
  datatype ImageSeed = ImageSeed(localPath: string, remotePath: string, downloadURL: Option<string>)

  /** The sentinel a subcollection resolves to; a child that resolves to it
      is left out of its parent. */
  const DeleteMarker: string := "__delete__"

  const Deleted: Data := PrimitiveValue(Str(DeleteMarker))

  /** No element or entry below the root is the sentinel. */
  predicate NoDeletedChild(d: Data)
  {
    match d
    case ArrayValue(items) => NoDeletedItem(items)
    case MapValue(fields) => NoDeletedField(fields)
    case _ => true
  }

  predicate NoDeletedSlot(s: Slot<Data>)
  {
    match s
    case Hole => true
    case Item(d) => d != Deleted && NoDeletedChild(d)
  }

  predicate NoDeletedItem(items: seq<Slot<Data>>)
  {
    |items| == 0 || (NoDeletedSlot(items[0]) && NoDeletedItem(items[1..]))
  }

  predicate NoDeletedEntry(f: Field<Data>)
  {
    f.value != Deleted && NoDeletedChild(f.value)
  }

  predicate NoDeletedField(fields: seq<Field<Data>>)
  {
    |fields| == 0 || (NoDeletedEntry(fields[0]) && NoDeletedField(fields[1..]))
  }

  // Sizes, for the termination of the import, which recurses into the
  // documents of subcollections found during resolution.

  function Size(v: Seed): (n: nat)
    ensures n >= 1
  {
    match v
    case Subcollection(docs) => 1 + DocsSize(docs)
    case Array(items) => 1 + ItemsSize(items)
    case Object(fields) => 1 + FieldsSize(fields)
    case _ => 1
  }

  function SlotSize(s: Slot<Seed>): (n: nat)
    ensures n >= 1
  {
    match s
    case Hole => 1
    case Item(v) => Size(v)
  }

  function ItemsSize(items: seq<Slot<Seed>>): nat
  {
    if |items| == 0 then 0 else SlotSize(items[0]) + ItemsSize(items[1..])
  }

  function FieldSize(f: Field<Seed>): (n: nat)
    ensures n >= 1
  {
    Size(f.value)
  }

  function FieldsSize(fields: seq<Field<Seed>>): nat
  {
    if |fields| == 0 then 0 else FieldSize(fields[0]) + FieldsSize(fields[1..])
  }

  function DocSize(d: DocSeed): (n: nat)
    ensures n >= 2
  {
    1 + Size(d.data)
  }

  function DocsSize(docs: seq<DocSeed>): nat
  {
    if |docs| == 0 then 0 else DocSize(docs[0]) + DocsSize(docs[1..])
  }

  // Every image placeholder of a tree, subcollection documents included,
  // names an instance that exists.

  predicate ImagesIn(v: Seed, ids: set<ImageId>)
  {
    match v
    case Image(id) => id in ids
    case Subcollection(docs) => DocsImagesIn(docs, ids)
    case Array(items) => ItemsImagesIn(items, ids)
    case Object(fields) => FieldsImagesIn(fields, ids)
    case _ => true
  }

  predicate SlotImagesIn(s: Slot<Seed>, ids: set<ImageId>)
  {
    match s
    case Hole => true
    case Item(v) => ImagesIn(v, ids)
  }

  predicate ItemsImagesIn(items: seq<Slot<Seed>>, ids: set<ImageId>)
  {
    |items| == 0 || (SlotImagesIn(items[0], ids) && ItemsImagesIn(items[1..], ids))
  }

  predicate FieldImagesIn(f: Field<Seed>, ids: set<ImageId>)
  {
    ImagesIn(f.value, ids)
  }

  predicate FieldsImagesIn(fields: seq<Field<Seed>>, ids: set<ImageId>)
  {
    |fields| == 0 || (FieldImagesIn(fields[0], ids) && FieldsImagesIn(fields[1..], ids))
  }

  predicate DocImagesIn(d: DocSeed, ids: set<ImageId>)
  {
    ImagesIn(d.data, ids)
  }

  predicate DocsImagesIn(docs: seq<DocSeed>, ids: set<ImageId>)
  {
    |docs| == 0 || (DocImagesIn(docs[0], ids) && DocsImagesIn(docs[1..], ids))
  }
}

=== FILE: world.dfy ===
/** The abstract world the engine runs against, standing in for the local
    file system, Cloud Storage and Firestore: a fixed environment of oracles
    and a state that every step threads along, with a trace of every call the
    engine makes on the outside world and whether it succeeded. */
module World {
  import opened Results
  import opened Values

  /** Path of a document: collection and document names, alternating. */
  type DocPath = seq<string>

  /** A stored blob: the local file it was uploaded from and its metadata. */
  datatype Blob = Blob(source: string, metadata: map<string, string>)

  /** Which remote calls are rejected, per destination or document path. */
  datatype Faults = Faults(
    existence: set<string>,
    upload: set<string>,
    getMetadata: set<string>,
    setMetadata: set<string>,
    write: set<DocPath>)

  /** What the engine consults but never changes: the local files that
      `fs.statSync` finds, the bucket's name, the faults, and the tokens
      `uuid.v4` hands out in turn. */
  datatype Env = Env(
    localFiles: set<string>,
    bucketName: string,
    faults: Faults,
    uuid: nat -> string)

  /** One call on the outside world. */
  datatype Op =
    | StatLocal(file: string)
    | Exists(dest: string)
    | Upload(file: string, dest: string)
    | GetMetadata(dest: string)
    | SetMetadata(dest: string, token: string)
    | CollectionRef(key: Option<string>)
    | Write(data: Data)

  /** A call made while importing the document at `doc`, and its outcome. */
  datatype Event = Event(doc: DocPath, op: Op, ok: bool)

  /** The image instances, the bucket, the database, how many tokens have
      been generated, and the trace. */
  datatype State = State(
    images: map<ImageId, ImageSeed>,
    blobs: map<string, Blob>,
    docs: map<DocPath, Data>,
    minted: nat,
    trace: seq<Event>)

  /** An outcome together with the state it leaves. */
  datatype Step<+T> = Step(result: Result<T>, st: State)

  function Record(st: State, e: Event): (st': State)
    ensures st'.trace == st.trace + [e]
    ensures st'.images == st.images && st'.blobs == st.blobs && st'.docs == st.docs && st'.minted == st.minted
  {
    st.(trace := st.trace + [e])
  }

  /** A call that failed: it is recorded, and the step fails with `err`. */
  function Fail<T>(st0: State, st: State, doc: DocPath, op: Op, err: Error): (r: Step<T>)
    requires st0.trace <= st.trace
    ensures r.result == Err(err) && r.st == Record(st, Event(doc, op, false))
    ensures st0.trace <= r.st.trace && !AllOk(Since(st0, r.st))
  {
    var r := Step(Err(err), Record(st, Event(doc, op, false)));
    assert Since(st0, r.st)[|Since(st0, r.st)| - 1] == Event(doc, op, false);
    r
  }

  /** The events `st'` has added to the trace of `st`. */
  function Since(st: State, st': State): seq<Event>
    requires st.trace <= st'.trace
  {
    st'.trace[|st.trace|..]
  }

  /** Calls made on behalf of the document at `doc` while its data is
      being resolved: none of them writes a document. */
  predicate EventsFor(events: seq<Event>, doc: DocPath)
  {
    forall i :: 0 <= i < |events| ==> events[i].doc == doc && !events[i].op.Write?
  }

  lemma EventsForAppend(a: seq<Event>, b: seq<Event>, doc: DocPath)
    requires EventsFor(a, doc) && EventsFor(b, doc)
    ensures EventsFor(a + b, doc)
  {
    forall i | 0 <= i < |a + b|
      ensures (a + b)[i].doc == doc && !(a + b)[i].op.Write?
    {
      if i < |a| {
        assert (a + b)[i] == a[i];
      } else {
        assert (a + b)[i] == b[i - |a|];
      }
    }
  }

  predicate AllOk(events: seq<Event>)
  {
    forall i :: 0 <= i < |events| ==> events[i].ok
  }

  lemma AllOkAppend(a: seq<Event>, b: seq<Event>)
    ensures AllOk(a + b) <==> AllOk(a) && AllOk(b)
  {
    if AllOk(a) && AllOk(b) {
      forall i | 0 <= i < |a + b|
        ensures (a + b)[i].ok
      {
        if i >= |a| {
          assert (a + b)[i] == b[i - |a|];
        }
      }
    }
    if AllOk(a + b) {
      forall i | 0 <= i < |a|
        ensures a[i].ok
      {
        assert (a + b)[i] == a[i];
      }
      forall i | 0 <= i < |b|
        ensures b[i].ok
      {
        assert (a + b)[|a| + i] == b[i];
      }
    }
  }

  /** The trace of `st3` extends that of `st2`, which extends that of
      `st1`: the new events split accordingly. */
  lemma SinceChain(st1: State, st2: State, st3: State)
    requires st1.trace <= st2.trace <= st3.trace
    ensures Since(st1, st3) == Since(st1, st2) + Since(st2, st3)
  {
  }
}
